=== FILE: README.md ===
# Bank account ledger: a Dafny model

The system is a single-user console tool that keeps a ledger of bank
accounts. Each account has a code (checked to be one letter and five
digits when it is entered; the source does not check that codes are
distinct, and a code read from a file is not checked at all), an owner
name, and two append-only histories: deposits and withdrawals. Its
derived values are the two totals, the balance, and whether the two totals
are equal. The ledger is an ordered vector of accounts. It can be saved to
a line-oriented text file and loaded back. The menu actions add an
account, record a deposit or withdrawal on a selected account, count
accounts per owner, and export the accounts whose deposits and withdrawals
are equal.

The model has nine modules:

- `Outcomes`: `Option`, `Result`, the validation errors the record throws,
  and the format errors the model gives for text it cannot read.
- `Text`: character classes, decimal numerals, and the stream reads the
  source uses: `>>` into a token or a number, `ignore()` and `getline`.
  A stream is the string of characters not yet read.
- `Lex`: the lexicographic order of `std::string`.
- `Seqs`: regrouping facts about sequences that the read-back proofs use.
- `Amounts`: the amount type, in-order sums, and the growable array the
  record stores its histories in (`Buffer`: the allocated slots and the
  number in use), with the resize, append, copy and total loops.
- `BankAccount`: the record as its getters see it, and its operations:
  validation, the constructors, the setters, `addDeposit`/`addWithdrawal`,
  `operator>>`, and the derived values. Every mutator returns the record
  after the call together with the exception it threw, if any.
- `AccountLayout`: the C++ field layout (two `Buffer`s). It shows that the
  array-level code computes what the value-level operations promise.
- `Serial`: `saveToFile` and `loadFromFile`, and their round trip.
- `Ledger`: the vector-level logic of the menu actions. This covers the
  per-owner count (a `std::map<std::string, int>`, kept as a strictly
  sorted list of entries), the equal-flow filter, ledger files and their
  loading, and the deposit, withdrawal and add actions on a selected
  account.

Behaviours of the source that are easy to miss:

- `loadFromFile` does not validate what it reads. `Serial.LoadSkipsValidation`
  exhibits a record with code "zz" and an empty owner that loads. The
  invariant that every record has a valid code and owner therefore holds
  only for records built through the constructor and setters.
- The default constructor leaves an empty owner. `BankAccount.Default` is
  therefore not well formed.
- `operator>>` replaces the code before it validates the owner. A bad owner
  leaves a record whose code was already replaced
  (`BankAccount.ReadInto`).
- The source does not check that a file read succeeded. It raises no
  format error, and a failed load keeps the accounts read before the
  failure rather than leaving the ledger empty. The model stops at the
  first read that cannot succeed and reports a `FormatError`. Accounts
  already read stay in the vector, as on the source's exception path.

## Model

`BankAccount.TotalDeposited`, `BankAccount.TotalWithdrawn`, `BankAccount.Balance` and `BankAccount.HasEqualFlows` model the getters at src/BankAccount.cpp:127-145 and 177-179 on the value-level record. They are the reference definitions that the `AccountLayout` rows check the array loops against, and that the deposit, withdrawal and run lemmas state their effects in. `Serial.SaveToFile` is the writer of one account. Its row below is the lemma `Serial.SaveToFileLayout`, and the round-trip rows state what reading its text gives back.

| member | source | states |
|---|---|---|
| BankAccount.CheckCode | src/BankAccount.cpp:6-20 | Accepts exactly the six-character codes made of a letter and five digits. A wrong length is reported first. A non-letter first character comes next. Any other rejection is a non-digit in the last five. |
| BankAccount.FirstNonDigit | src/BankAccount.cpp:15-19 | The digit loop stops at the first non-digit. Every character it passed is a digit. |
| BankAccount.CheckOwner | src/BankAccount.cpp:22-26 | Only the empty owner name is refused. |
| Amounts.Resize | src/BankAccount.cpp:28-41 | A buffer with room is left untouched. A full one grows to capacity 2 from empty, or else to double its capacity. The amounts in use are kept in order, and afterwards there is room for one more. |
| BankAccount.Default | src/BankAccount.cpp:58-67 | The default record has code "A00000", an empty owner and no amounts. It is not well formed. |
| AccountLayout.Constructed | src/BankAccount.cpp:58-81 | Either constructor allocates no amount slots and exposes empty histories. The layout the two-argument constructor builds, when it does not throw, shows exactly the record `Create` returns. For the default code and owner it shows `Default`. |
| BankAccount.Create | src/BankAccount.cpp:69-81 | Construction succeeds exactly when the code is valid and the owner non-empty. The code is checked first. On success the record echoes both back with empty histories and is well formed. |
| Amounts.Copy | src/BankAccount.cpp:93-101 | The copy has the same capacity and the same amounts in use. |
| AccountLayout.CopyOf | src/BankAccount.cpp:83-102 | The copy constructor yields an equal record with blocks of the same capacities. |
| AccountLayout.Counts | src/BankAccount.cpp:119-125 | The two counts are the lengths of the histories the record exposes. |
| Amounts.Total | src/BankAccount.cpp:127-141 | The loop total is the in-order sum of the amounts in use. |
| AccountLayout.BalanceOf | src/BankAccount.cpp:143-145 | The array-level balance equals deposited total minus withdrawn total of the exposed record. |
| BankAccount.SetCode | src/BankAccount.cpp:147-152 | The code is replaced exactly when the new one is valid. On failure the record is unchanged and the error thrown is the one the code validator reports. Owner and histories never change. |
| BankAccount.SetOwner | src/BankAccount.cpp:154-159 | The owner is replaced exactly when the new one is non-empty. On failure the record is unchanged. Code and histories never change. |
| Amounts.Push | src/BankAccount.cpp:165-166 | Appending stores the amount after the existing ones. The capacity stays the same when there is room, and grows otherwise. |
| BankAccount.AddDeposit | src/BankAccount.cpp:161-167 | A negative amount throws and changes nothing. Otherwise the amount is appended to the deposits, the old deposits form the prefix, and nothing else changes. |
| BankAccount.AddWithdrawal | src/BankAccount.cpp:169-175 | Withdrawals get the same promise. |
| AccountLayout.AddDepositAt | src/BankAccount.cpp:161-167 | The sign check, resize and store on the arrays agree with `AddDeposit` on the exposed record and on the exception. |
| AccountLayout.AddWithdrawalAt | src/BankAccount.cpp:169-175 | The array-level `addWithdrawal` agrees with `AddWithdrawal`. |
| BankAccount.DepositEffect | src/BankAccount.cpp:161-167 | An accepted deposit raises the deposited total and the balance by its amount and leaves the withdrawn total alone. |
| BankAccount.WithdrawalEffect | src/BankAccount.cpp:169-175 | An accepted withdrawal raises the withdrawn total and lowers the balance by its amount. |
| BankAccount.TotalsNonNegative | src/BankAccount.cpp:161-175 | Because negative amounts are refused, a well-formed record never has a negative total. |
| AccountLayout.EqualFlowsOf | src/BankAccount.cpp:177-179 | The array-level comparison is true exactly when the exposed record's totals are equal. |
| BankAccount.MatchedPairKeepsBalance | src/BankAccount.cpp:161-179 | A deposit followed by a withdrawal of the same amount leaves the balance and the equal-flow answer as they were. This holds for every amount, because a negative one is refused by both calls. |
| BankAccount.RunTotals | src/BankAccount.cpp:127-175 | After any sequence of calls, each total is the old total plus the sum of the amounts accepted, failing calls adding nothing. |
| BankAccount.FlowExamples | src/BankAccount.cpp:177-179 | In minor units: deposits of 10.00 and 5.00 against one withdrawal of 15.00 have equal flows. A deposit of 10.00 against a withdrawal of 5.00 does not, and its balance is 5.00. |
| AccountLayout.Assign | src/BankAccount.cpp:181-210 | Self-assignment changes nothing. Otherwise the target becomes an equal record with the source's capacities. |
| BankAccount.RunKeepsWellFormed | src/BankAccount.cpp:147-175 | Any sequence of setter and append calls, failing ones included, keeps a well-formed record well formed. |
| BankAccount.RunAppendsOnly | src/BankAccount.cpp:161-175 | After any calls, each history is the old one followed by the accepted amounts in call order. |
| BankAccount.ReadInto | src/BankAccount.cpp:250-265 | A bad code changes nothing. A good code with an empty name leaves the code replaced and throws. Both good replaces both. |
| Text.ReadIntText | src/BankAccount.cpp:299-301 | Reading a number back from its decimal text gives the number and stops right after its digits. |
| Serial.ReadCount | src/BankAccount.cpp:295-298 | A count is read only when it lies between 0 and the largest `int`. It consumes input. |
| Serial.ReadIdentity | src/BankAccount.cpp:281-286 | A read code token is non-empty, has no white space and fits the 10-character buffer. The owner line has no newline and fits the 256-character buffer. |
| Serial.LoadFromFile | src/BankAccount.cpp:280-311 | A loaded record has a code that fits its buffer, an owner line that fits its buffer, and counts an `int` holds. So every loaded record can be saved and read back. |
| AccountLayout.FillBlock | src/BankAccount.cpp:296-301 | A fresh block of exactly `count` slots is filled by one read per slot. The loop fails exactly when the value-level `ReadAmounts` fails, with the same error. Otherwise the block holds the same amounts in the same order, and the stream is left at the same place. |
| AccountLayout.ReadBlock | src/BankAccount.cpp:295-301 | Reading a count and then filling a block of that size fails exactly when `ReadHistory` fails, with the same error. Otherwise the block holds the history `ReadHistory` reads, and it has no spare capacity. |
| AccountLayout.LoadLayout | src/BankAccount.cpp:280-311 | The array-level `loadFromFile` reads the code and owner and then fills two fresh blocks. It fails exactly when the value-level `LoadFromFile` fails, with the same error. Otherwise it exposes the same record and leaves the stream at the same place, and each block is exactly as large as its count. |
| Serial.ReadAmountsBack | src/BankAccount.cpp:271-273 | The amount lines read back as the same amounts in order. Reading stops before the newline that ends the last line. |
| Serial.SaveToFileLayout | src/BankAccount.cpp:267-278 | `saveToFile` writes the code line first and ends with a line break. Apart from line breaks inside the code or the owner, its text holds exactly one line break per field line (code, owner, two counts) and one per amount. |
| Serial.LoadSavedAccount | src/BankAccount.cpp:267-311 | Take any serialisable record followed by any text. `loadFromFile` returns the same record and stops exactly where its `saveToFile` text ends. |
| Serial.LoadSkipsValidation | src/BankAccount.cpp:284-293 | A record with a malformed code and an empty owner loads without complaint. |
| Serial.WellFormedIsSerializable | src/BankAccount.cpp:267-278 | A well-formed record can be serialised when its owner fits one line of the name buffer and its counts fit an `int`. |
| Ledger.Increment | src/main.cpp:283-284 | `ownerCount[name]++` adds one under that name and changes no other count. It keeps the keys strictly ordered and every count positive. |
| Ledger.CountOwners | src/main.cpp:280-285 | After the loop, the count under every name is the number of accounts that name owns. |
| Ledger.Shared | src/main.cpp:288-293 | The collected entries are exactly those with a count above one, in key order. |
| Ledger.OwnersWithMultipleAccounts | src/main.cpp:269-309 | The report lists each owner of more than one account exactly once, in ascending order, with the true number of accounts. It lists nobody else. |
| Lex.Transitive | src/main.cpp:281-299 | String order is transitive. |
| Lex.Connected | src/main.cpp:281-299 | Any two distinct strings are ordered one way or the other. |
| Lex.Asymmetric | src/main.cpp:281-299 | No two strings are each below the other. |
| Ledger.EqualFlowIndices | src/main.cpp:357-362 | The selected positions are increasing. They are exactly the positions of the equal-flow accounts. |
| Ledger.EqualFlowAccounts | src/main.cpp:357-362 | The filter keeps the accounts at exactly those positions, in vector order. |
| Ledger.EqualAccountsFile | src/main.cpp:345-381 | Nothing is written exactly when no account has equal flows. This covers the empty vector. |
| Ledger.EqualAccountsFileReadsBack | src/main.cpp:370-382 | The equal-flow export loads back as exactly the equal-flow accounts, in order. |
| Ledger.SaveLedger | src/main.cpp:253-256 | A ledger file is the account count in decimal on the first line, followed by the accounts' texts. The same layout is written at src/main.cpp:378-381 and 407-410. |
| Ledger.SaveAllConcat | src/main.cpp:254-256 | The accounts' texts follow one another in vector order: the text of two vectors joined is the first one's text followed by the second's. A one-account vector's text is that account's `saveToFile` output. |
| Ledger.AccountsFile | src/main.cpp:227-257 | Nothing is written exactly when the vector is empty. Otherwise the file's first line is the account count in decimal. |
| Ledger.AccountsFileReadsBack | src/main.cpp:247-257 | The accounts file loads back as the vector itself. |
| Ledger.LoadAccounts | src/main.cpp:429-433 | The loop reads all n accounts or stops at the first failure with fewer. Every account it reads can be saved and read back. |
| Ledger.LoadData | src/main.cpp:420-443 | A missing file leaves the vector unchanged. Otherwise the vector is replaced. A clean load has as many accounts as the file declares. A failed one has fewer. Every account loaded from a file can be saved and read back. |
| Ledger.LoadDiscardsPrevious | src/main.cpp:428 | Loading an existing file does not depend on what the vector held before. |
| Ledger.LoadSavedAccounts | src/main.cpp:429-433 | Any sequence of serialisable accounts written one after another reads back in order. |
| Ledger.LoadSavedLedger | src/main.cpp:400-433 | Save the ledger, then load that file. The same accounts come back in the same order with no error, whatever the vector held. |
| Ledger.ReloadAfterLoad | src/main.cpp:400-443 | Whatever a start-up load read from an existing file, saving it and loading again gives exactly those accounts with no error. |
| Ledger.SelectAccount | src/main.cpp:445-459 | A choice in [1, size] selects the account listed under that number. |
| Ledger.DepositToAccount | src/main.cpp:132-158 | An empty vector is left alone. Otherwise only the selected account changes, and it changes as `addDeposit` does. |
| Ledger.WithdrawalToAccount | src/main.cpp:160-186 | An empty vector is left alone. Otherwise only the selected account changes, as `addWithdrawal` does. |
| Ledger.AddBankAccount | src/main.cpp:115-130 | The account is appended, with empty histories, exactly when both code and name are valid. Otherwise the vector is unchanged. |
| Ledger.AddKeepsWellFormed | src/main.cpp:115-130 | Adding an account keeps every account of the vector well formed. |
| Ledger.FlowsKeepWellFormed | src/main.cpp:148-150 | A deposit or withdrawal on a selected account keeps every account well formed. |

## Left out

- Console I/O is left out: the menu loop, prompts, `clearScreen`, `pauseScreen`, and the `getValidatedInt` / `getValidatedDouble` retry loops. Their results enter the model as parameters: the chosen number, the amount, the code and the name.
- File opening and file names are left out. An existing file is the `Some` text it holds and a missing one is `None`. A file that cannot be created writes nothing, and that case is not modelled.
- `operator<<`, the account listings and the differences table are presentation only: fixed two-decimal formatting and column widths.
- Amounts are whole numbers of minor units, not IEEE-754 doubles. Rounding in sums is not modelled. In a saved file, an amount line holds the integer numeral of the amount in minor units. This numeral stands in for the `double` text the source writes in major units with 6 significant digits (src/BankAccount.cpp:272 and 276), such as `10.5` or `1e+06`. A file whose amount lines contain a decimal point or an exponent, as the source writes them, fails to load in the model with `NotANumber`. Precision lost by the source's output does not appear in the model's round trip.
- Memory management (`new`/`delete`, the destructor) is left out, and so are the uninitialised slots of a fresh block, which the model fills with 0.
- Serial.LoadFromFile: a read that fails the C++ stream is a `FormatError` in the model and stops the load. The source carries on with a failed stream and garbage values. These reads are a missing token, an owner line of 256 or more characters, a non-numeric amount or count, and a count above 2^31-1 (the extraction fails and stores `INT_MAX`).
- Serial.ReadCount: a negative count is not a stream failure, and here the model is faithful. `is >> count` reads it without error, and `new double[count]` then throws `std::bad_array_new_length` (src/BankAccount.cpp:297 and 305). `loadDataFromFile` catches the exception (src/main.cpp:440-442) and keeps the accounts already read, and the model's `CountOutOfRange` does the same.
- Serial.ReadIdentity: a code token of 10 or more characters is not a stream failure either. The source reads it without error and writes past `char code[10]`, which is undefined behaviour. The model stops with `CodeTooLong` instead.
- Ledger.LoadData: a ledger file whose count cannot be read loads 0 accounts. When non-numeric text follows the white space, C++11 extraction stores 0 in the count, so the source also loads 0. When the file is empty or holds only white space, the extraction fails before it stores anything, and the source then loops over an uninitialised `size_t accountCount` (src/main.cpp:424-425), which is undefined behaviour. For that case 0 is the model's choice. A negative count or one above `SIZE_MAX` is an error that leaves the vector empty. The source wraps a negative count round to a huge `size_t`.
- The 32-bit `int` counts and capacities are unbounded in the model. Overflow when doubling a capacity past 2^31 is not modelled, and neither is allocation failure.
- Each Dafny `char` stands for one byte, that is one C++ `char`, of the source's strings. The code length that `strlen` measures, the 10-byte code buffer and the 256-byte name buffer, and the `std::string` order all count and compare bytes. Text with multi-byte characters must be given to the model as its bytes. Character encodings such as UTF-8 are not modelled, and each byte is compared as an unsigned value.
- Strings contain no NUL characters. The C-string copies (`strlen`/`strcpy`) are modelled as plain string values.
- Locale is left out. Letters and digits are ASCII and white space is the C locale's `isspace` set.

=== FILE: account.dfy ===
/** The bank account record: identity (code and owner), the append-only
    deposit and withdrawal histories, the values derived from them, and the
    validate-before-mutate operations that change it. */
module BankAccount {
  import opened Outcomes
  import opened Text
  import opened Amounts

  /** One account, as its getters see it. */
  datatype Account = Account(code: string, owner: string, deposits: seq<Amount>, withdrawals: seq<Amount>)

  /** What a mutating member leaves behind: the record after the call and the
      exception it threw, if any. */
  datatype Step = Step(state: Account, thrown: Option<ValidationError>)

  /** The documented shape of a unique code: a letter followed by 5 digits. */
  predicate ValidCode(code: string) {
    |code| == 6 && IsAsciiLetter(code[0]) && forall i :: 1 <= i < 6 ==> IsAsciiDigit(code[i])
  }

  /** The identity and sign invariant of a record built through the
      validating constructor and setters. */
  predicate WellFormed(a: Account) {
    ValidCode(a.code) && a.owner != [] && NonNegative(a.deposits) && NonNegative(a.withdrawals)
  }

  /** The index of the first non-digit of s at or after i, or |s| if none:
      the digit loop of the code validator. */
  function FirstNonDigit(s: string, i: nat): (k: nat)
    requires i <= |s|
    ensures i <= k <= |s|
    ensures forall j :: i <= j < k ==> IsAsciiDigit(s[j])
    ensures k < |s| ==> !IsAsciiDigit(s[k])
    decreases |s| - i
  {
    if i == |s| || !IsAsciiDigit(s[i]) then i else FirstNonDigit(s, i + 1)
  }

  /** `validateUniqueCode`: the length check, then the letter check, then the
      digit loop; None when all pass. */
  function CheckCode(code: string): (r: Option<ValidationError>)
    ensures r.None? <==> ValidCode(code)
    ensures r == Some(CodeLength) <==> |code| != 6
    ensures r == Some(CodeFirstChar) <==> |code| == 6 && !IsAsciiLetter(code[0])
    ensures r.Some? ==> r.value in {CodeLength, CodeFirstChar, CodeDigits}
  {
    if |code| != 6 then Some(CodeLength)
    else if !IsAsciiLetter(code[0]) then Some(CodeFirstChar)
    else if FirstNonDigit(code, 1) < 6 then Some(CodeDigits)
    else None
  }

  /** `validateOwnerName`: only the empty name is refused. */
  function CheckOwner(name: string): (r: Option<ValidationError>)
    ensures r.None? <==> name != []
    ensures r.Some? ==> r.value == EmptyOwner
  {
    if name == [] then Some(EmptyOwner) else None
  }

  /** The default constructor: code "A00000", an empty owner, no amounts. */
  function Default(): (a: Account)
    ensures ValidCode(a.code) && a.owner == [] && a.deposits == [] && a.withdrawals == []
    ensures !WellFormed(a)
  {
    Account("A00000", "", [], [])
  }

  /** The two-argument constructor: the code is validated, then the owner,
      and only then is anything stored. */
  function Create(code: string, owner: string): (r: Result<Account, ValidationError>)
    ensures r.Ok? <==> ValidCode(code) && owner != []
    ensures r.Ok? ==> r.value.code == code && r.value.owner == owner
    ensures r.Ok? ==> |r.value.deposits| == 0 && |r.value.withdrawals| == 0
    ensures r.Ok? ==> WellFormed(r.value)
    ensures !ValidCode(code) ==> r == Err(CheckCode(code).value)
    ensures ValidCode(code) && owner == [] ==> r == Err(EmptyOwner)
  {
    match CheckCode(code)
    case Some(e) => Err(e)
    case None =>
      match CheckOwner(owner)
      case Some(e) => Err(e)
      case None => Ok(Account(code, owner, [], []))
  }

  /** `setUniqueCode`: validate, then replace the code and nothing else. */
  function SetCode(a: Account, code: string): (r: Step)
    ensures r.thrown.None? <==> ValidCode(code)
    ensures r.thrown == CheckCode(code)
    ensures r.thrown.Some? ==> r.state == a && r.thrown.value in {CodeLength, CodeFirstChar, CodeDigits}
    ensures r.state.code == (if ValidCode(code) then code else a.code)
    ensures r.state.owner == a.owner
    ensures r.state.deposits == a.deposits && r.state.withdrawals == a.withdrawals
  {
    match CheckCode(code)
    case Some(e) => Step(a, Some(e))
    case None => Step(a.(code := code), None)
  }

  /** `setOwnerName`: validate, then replace the owner and nothing else. */
  function SetOwner(a: Account, name: string): (r: Step)
    ensures r.thrown.None? <==> name != []
    ensures r.thrown.Some? ==> r.state == a && r.thrown.value == EmptyOwner
    ensures r.state.owner == (if name != [] then name else a.owner)
    ensures r.state.code == a.code
    ensures r.state.deposits == a.deposits && r.state.withdrawals == a.withdrawals
  {
    match CheckOwner(name)
    case Some(e) => Step(a, Some(e))
    case None => Step(a.(owner := name), None)
  }

  /** `addDeposit`: a negative amount throws before anything changes;
      otherwise the amount goes on the end of the deposits. */
  function AddDeposit(a: Account, amount: Amount): (r: Step)
    ensures r.thrown.None? <==> amount >= 0
    ensures r.thrown.Some? ==> r.state == a && r.thrown.value == NegativeDeposit
    ensures r.thrown.None? ==>
      |r.state.deposits| == |a.deposits| + 1
      && r.state.deposits[..|a.deposits|] == a.deposits
      && r.state.deposits[|a.deposits|] == amount
    ensures r.state.code == a.code && r.state.owner == a.owner
    ensures r.state.withdrawals == a.withdrawals
  {
    if amount < 0 then Step(a, Some(NegativeDeposit))
    else Step(a.(deposits := a.deposits + [amount]), None)
  }

  /** `addWithdrawal`: the mirror image of `addDeposit`. */
  function AddWithdrawal(a: Account, amount: Amount): (r: Step)
    ensures r.thrown.None? <==> amount >= 0
    ensures r.thrown.Some? ==> r.state == a && r.thrown.value == NegativeWithdrawal
    ensures r.thrown.None? ==>
      |r.state.withdrawals| == |a.withdrawals| + 1
      && r.state.withdrawals[..|a.withdrawals|] == a.withdrawals
      && r.state.withdrawals[|a.withdrawals|] == amount
    ensures r.state.code == a.code && r.state.owner == a.owner
    ensures r.state.deposits == a.deposits
  {
    if amount < 0 then Step(a, Some(NegativeWithdrawal))
    else Step(a.(withdrawals := a.withdrawals + [amount]), None)
  }

  /** `operator>>` once the two lines are read: `setUniqueCode`, then
      `setOwnerName`. A bad name is reported after the code was already
      replaced. */
  function ReadInto(a: Account, code: string, name: string): (r: Step)
    ensures !ValidCode(code) ==> r.state == a && r.thrown == CheckCode(code)
    ensures ValidCode(code) && name == [] ==> r.state == a.(code := code) && r.thrown == Some(EmptyOwner)
    ensures ValidCode(code) && name != [] ==> r.state == a.(code := code, owner := name) && r.thrown.None?
  {
    var first := SetCode(a, code);
    if first.thrown.Some? then first else SetOwner(first.state, name)
  }

  function TotalDeposited(a: Account): int {
    Sum(a.deposits)
  }

  function TotalWithdrawn(a: Account): int {
    Sum(a.withdrawals)
  }

  /** `getBalance`: what was deposited minus what was withdrawn. */
  function Balance(a: Account): int {
    TotalDeposited(a) - TotalWithdrawn(a)
  }

  /** `hasEqualDepositsAndWithdrawals`: the two totals compared exactly. */
  predicate HasEqualFlows(a: Account) {
    TotalDeposited(a) == TotalWithdrawn(a)
  }

  /** An accepted deposit raises the deposited total and the balance by its
      amount and leaves the withdrawn total alone. */
  lemma DepositEffect(a: Account, amount: Amount)
    requires amount >= 0
    ensures TotalDeposited(AddDeposit(a, amount).state) == TotalDeposited(a) + amount
    ensures TotalWithdrawn(AddDeposit(a, amount).state) == TotalWithdrawn(a)
    ensures Balance(AddDeposit(a, amount).state) == Balance(a) + amount
  {
    SumAppend(a.deposits, amount);
  }

  /** An accepted withdrawal raises the withdrawn total and lowers the balance
      by its amount. */
  lemma WithdrawalEffect(a: Account, amount: Amount)
    requires amount >= 0
    ensures TotalWithdrawn(AddWithdrawal(a, amount).state) == TotalWithdrawn(a) + amount
    ensures TotalDeposited(AddWithdrawal(a, amount).state) == TotalDeposited(a)
    ensures Balance(AddWithdrawal(a, amount).state) == Balance(a) - amount
  {
    SumAppend(a.withdrawals, amount);
  }

  /** A deposit followed by a withdrawal of the same amount leaves the
      balance, and so whether the flows are equal, as it was. A negative
      amount is refused by both calls, which then change nothing. */
  lemma MatchedPairKeepsBalance(a: Account, amount: Amount)
    ensures Balance(AddWithdrawal(AddDeposit(a, amount).state, amount).state) == Balance(a)
    ensures HasEqualFlows(AddWithdrawal(AddDeposit(a, amount).state, amount).state) <==> HasEqualFlows(a)
  {
    if amount >= 0 {
      DepositEffect(a, amount);
      WithdrawalEffect(AddDeposit(a, amount).state, amount);
    }
  }

  /** A well-formed record never reports a negative total. */
  lemma TotalsNonNegative(a: Account)
    requires WellFormed(a)
    ensures TotalDeposited(a) >= 0 && TotalWithdrawn(a) >= 0
  {
    SumNonNegative(a.deposits);
    SumNonNegative(a.withdrawals);
  }

  /** A call a caller can make on a record; exceptions are caught and the
      session goes on. */
  datatype Call = SetCodeCall(code: string) | SetOwnerCall(name: string) | DepositCall(amount: Amount) | WithdrawalCall(amount: Amount)

  function Apply(a: Account, c: Call): Step {
    match c
    case SetCodeCall(code) => SetCode(a, code)
    case SetOwnerCall(name) => SetOwner(a, name)
    case DepositCall(x) => AddDeposit(a, x)
    case WithdrawalCall(x) => AddWithdrawal(a, x)
  }

  /** The record after a sequence of calls, each one's exception caught. */
  function Run(a: Account, calls: seq<Call>): Account
    decreases |calls|
  {
    if |calls| == 0 then a else Run(Apply(a, calls[0]).state, calls[1..])
  }

  /** The deposits the calls add: the non-negative deposit amounts, in order. */
  function AcceptedDeposits(calls: seq<Call>): seq<Amount>
    decreases |calls|
  {
    if |calls| == 0 then []
    else (if calls[0].DepositCall? && calls[0].amount >= 0 then [calls[0].amount] else []) + AcceptedDeposits(calls[1..])
  }

  function AcceptedWithdrawals(calls: seq<Call>): seq<Amount>
    decreases |calls|
  {
    if |calls| == 0 then []
    else (if calls[0].WithdrawalCall? && calls[0].amount >= 0 then [calls[0].amount] else []) + AcceptedWithdrawals(calls[1..])
  }

  /** Validate-before-mutate keeps a well-formed record well-formed through
      any sequence of calls, failing ones included. */
  lemma {:induction false} RunKeepsWellFormed(a: Account, calls: seq<Call>)
    requires WellFormed(a)
    ensures WellFormed(Run(a, calls))
    decreases |calls|
  {
    if |calls| != 0 {
      var next := Apply(a, calls[0]).state;
      assert WellFormed(next);
      RunKeepsWellFormed(next, calls[1..]);
    }
  }

  /** The histories are append-only: after any calls, the deposits are the old
      ones followed by the accepted deposit amounts in call order, and the
      same for withdrawals. */
  lemma {:induction false} RunAppendsOnly(a: Account, calls: seq<Call>)
    ensures Run(a, calls).deposits == a.deposits + AcceptedDeposits(calls)
    ensures Run(a, calls).withdrawals == a.withdrawals + AcceptedWithdrawals(calls)
    decreases |calls|
  {
    if |calls| != 0 {
      var next := Apply(a, calls[0]).state;
      RunAppendsOnly(next, calls[1..]);
      var c := calls[0];
      assert next.deposits == a.deposits + (if c.DepositCall? && c.amount >= 0 then [c.amount] else []);
      assert next.withdrawals == a.withdrawals + (if c.WithdrawalCall? && c.amount >= 0 then [c.amount] else []);
    }
  }

  /** The totals after any calls: the old totals plus the accepted amounts. */
  lemma RunTotals(a: Account, calls: seq<Call>)
    ensures TotalDeposited(Run(a, calls)) == TotalDeposited(a) + Sum(AcceptedDeposits(calls))
    ensures TotalWithdrawn(Run(a, calls)) == TotalWithdrawn(a) + Sum(AcceptedWithdrawals(calls))
  {
    RunAppendsOnly(a, calls);
    SumConcat(a.deposits, AcceptedDeposits(calls));
    SumConcat(a.withdrawals, AcceptedWithdrawals(calls));
  }

  /** Two accounts in minor units: deposits of 10.00 and 5.00 against one
      withdrawal of 15.00 have equal flows; a deposit of 10.00 against a
      withdrawal of 5.00 does not, and leaves a balance of 5.00. */
  lemma FlowExamples()
    ensures HasEqualFlows(Account("A11111", "Alice", [1000, 500], [1500]))
    ensures !HasEqualFlows(Account("A11111", "Alice", [1000], [500]))
    ensures Balance(Account("A11111", "Alice", [1000], [500])) == 500
  {
    assert [1000, 500][..1] == [1000];
  }
}

=== FILE: amounts.dfy ===
/** Amounts, their running totals, and the hand-rolled growable array that
    stores them in the C++ record: a block of `capacity` slots of which the
    first `count` are in use. */
module Amounts {

  /** A deposit or withdrawal, in whole minor currency units. */
  type Amount = int

  /** The total `for (i = 0; i < count; ++i) total += a[i]` computes. */
  function Sum(s: seq<Amount>): int
  {
    if |s| == 0 then 0 else Sum(s[..|s| - 1]) + s[|s| - 1]
  }

  predicate NonNegative(s: seq<Amount>) {
    forall i :: 0 <= i < |s| ==> s[i] >= 0
  }

  lemma SumAppend(s: seq<Amount>, x: Amount)
    ensures Sum(s + [x]) == Sum(s) + x
  {
    assert (s + [x])[..|s|] == s;
  }

  /** A total of amounts none of which is negative is not negative either. */
  lemma {:induction false} SumNonNegative(s: seq<Amount>)
    requires NonNegative(s)
    ensures Sum(s) >= 0
  {
    if |s| != 0 {
      SumNonNegative(s[..|s| - 1]);
    }
  }

  /** Summing in pieces gives the same total as summing in one pass. */
  lemma {:induction false} SumConcat(s: seq<Amount>, t: seq<Amount>)
    ensures Sum(s + t) == Sum(s) + Sum(t)
    decreases |t|
  {
    if |t| == 0 {
      assert s + t == s;
    } else {
      var t' := t[..|t| - 1];
      assert s + t == (s + t') + [t[|t| - 1]];
      SumAppend(s + t', t[|t| - 1]);
      SumConcat(s, t');
      assert t == t' + [t[|t| - 1]];
      SumAppend(t', t[|t| - 1]);
    }
  }

  /** The array behind one amount sequence: `slots` is the allocated block
      (its length is the capacity) and `count` the number of slots in use. */
  datatype Buffer = Buffer(slots: seq<Amount>, count: nat)

  /** The invariant the record keeps: the count never exceeds the capacity. */
  predicate Valid(b: Buffer) {
    b.count <= |b.slots|
  }

  /** The amounts the buffer holds, in insertion order. */
  function Contents(b: Buffer): (s: seq<Amount>)
    requires Valid(b)
    ensures |s| == b.count
  {
    b.slots[..b.count]
  }

  /** The capacity a full buffer is grown to: 2 from empty, doubled otherwise. */
  function GrownCapacity(capacity: nat): (c: nat)
    ensures c > capacity && c >= 2
  {
    if capacity == 0 then 2 else 2 * capacity
  }

  /** The buffer of a freshly constructed record: no slots at all. */
  function EmptyBuffer(): (b: Buffer)
    ensures Valid(b) && Contents(b) == [] && |b.slots| == 0
  {
    Buffer([], 0)
  }

  /** A block of n fresh slots. The C++ leaves them uninitialised; here they hold 0. */
  function FreshSlots(n: nat): (s: seq<Amount>)
    ensures |s| == n
  {
    seq(n, _ => 0)
  }

  /** `resizeDepositedArray` / `resizeWithdrawnArray`: a full buffer gets a
      larger block with the used slots copied over; a buffer with room is
      left alone. Afterwards there is room for one more amount. */
  method Resize(b: Buffer) returns (r: Buffer)
    requires Valid(b)
    ensures Valid(r) && r.count < |r.slots|
    ensures r.count == b.count && Contents(r) == Contents(b)
    ensures b.count < |b.slots| ==> r == b
    ensures b.count >= |b.slots| ==> |r.slots| == GrownCapacity(|b.slots|)
  {
    if b.count < |b.slots| {
      return b;
    }
    var capacity := GrownCapacity(|b.slots|);
    var grown := FreshSlots(capacity);
    var i := 0;
    while i < b.count
      invariant 0 <= i <= b.count
      invariant |grown| == capacity
      invariant grown[..i] == b.slots[..i]
    {
      grown := grown[i := b.slots[i]];
      i := i + 1;
    }
    r := Buffer(grown, b.count);
  }

  /** `addDeposit` / `addWithdrawal` past the sign check: grow if full, then
      store the amount in the next free slot. */
  method Push(b: Buffer, x: Amount) returns (r: Buffer)
    requires Valid(b)
    ensures Valid(r)
    ensures Contents(r) == Contents(b) + [x]
    ensures |r.slots| == (if b.count < |b.slots| then |b.slots| else GrownCapacity(|b.slots|))
  {
    var room := Resize(b);
    r := Buffer(room.slots[room.count := x], room.count + 1);
    assert Contents(r) == room.slots[..room.count] + [x];
  }

  /** The copy constructor and `operator=`: a new block of the same capacity,
      with the used slots copied one by one. */
  method Copy(b: Buffer) returns (r: Buffer)
    requires Valid(b)
    ensures Valid(r)
    ensures |r.slots| == |b.slots| && Contents(r) == Contents(b)
  {
    var slots := FreshSlots(|b.slots|);
    var i := 0;
    while i < b.count
      invariant 0 <= i <= b.count
      invariant |slots| == |b.slots|
      invariant slots[..i] == b.slots[..i]
    {
      slots := slots[i := b.slots[i]];
      i := i + 1;
    }
    r := Buffer(slots, b.count);
  }

  /** `getTotalDeposited` / `getTotalWithdrawn`: the in-order sum of the used slots. */
  method Total(b: Buffer) returns (total: int)
    requires Valid(b)
    ensures total == Sum(Contents(b))
  {
    total := 0;
    var i := 0;
    while i < b.count
      invariant 0 <= i <= b.count
      invariant total == Sum(b.slots[..i])
    {
      assert b.slots[..i + 1] == b.slots[..i] + [b.slots[i]];
      SumAppend(b.slots[..i], b.slots[i]);
      total := total + b.slots[i];
      i := i + 1;
    }
  }
}

=== FILE: layout.dfy ===
/** The record as the C++ class lays it out: code, owner, and one growable
    array per amount history. `View` maps the layout to the value its getters
    expose; each member below shows that the array-level code computes what
    the value-level operation in BankAccount promises. */
module AccountLayout {
  import opened Outcomes
  import opened Amounts
  import opened BankAccount
  import opened Text
  import opened Serial

  datatype Layout = Layout(code: string, owner: string, deposited: Buffer, withdrawn: Buffer)

  /** `depositedCount <= depositedCapacity` and the same for withdrawals. */
  predicate Valid(l: Layout) {
    Amounts.Valid(l.deposited) && Amounts.Valid(l.withdrawn)
  }

  function View(l: Layout): Account
    requires Valid(l)
  {
    Account(l.code, l.owner, Contents(l.deposited), Contents(l.withdrawn))
  }

  /** `getDepositedCount` / `getWithdrawnCount` report the lengths of the
      histories the record exposes. */
  function Counts(l: Layout): (r: (nat, nat))
    requires Valid(l)
    ensures r.0 == |View(l).deposits| && r.1 == |View(l).withdrawals|
  {
    (l.deposited.count, l.withdrawn.count)
  }

  /** The layout of a record built by either constructor: no blocks allocated. */
  function Constructed(code: string, owner: string): (l: Layout)
    ensures Valid(l) && View(l) == Account(code, owner, [], [])
    ensures |l.deposited.slots| == 0 && |l.withdrawn.slots| == 0
    ensures Create(code, owner).Ok? ==> View(l) == Create(code, owner).value
    ensures code == Default().code && owner == Default().owner ==> View(l) == Default()
  {
    Layout(code, owner, EmptyBuffer(), EmptyBuffer())
  }

  /** The amounts `ReadAmounts` returns once the first ones are already
      stored: the rest of the read, with the stored amounts in front. */
  function Preceded(stored: seq<Amount>, r: Result<Parsed<seq<Amount>>, FormatError>): Result<Parsed<seq<Amount>>, FormatError> {
    match r
    case Ok(p) => Ok(Parsed(stored + p.value, p.rest))
    case Err(e) => Err(e)
  }

  lemma PrecededByNothing(r: Result<Parsed<seq<Amount>>, FormatError>)
    ensures Preceded([], r) == r
  {
    if r.Ok? {
      assert [] + r.value.value == r.value.value;
    }
  }

  lemma PrecededTwice(a: seq<Amount>, b: seq<Amount>, r: Result<Parsed<seq<Amount>>, FormatError>)
    ensures Preceded(a, Preceded(b, r)) == Preceded(a + b, r)
  {
    if r.Ok? {
      assert a + (b + r.value.value) == (a + b) + r.value.value;
    }
  }

  /** One turn of the read loop: a number read from the stream, then the
      remaining n - 1. */
  lemma ReadAmountsTurn(n: nat, t: string, amount: Parsed<int>)
    requires 0 < n && ReadInteger(t) == Some(amount)
    ensures ReadAmounts(n, t) == Preceded([amount.value], ReadAmounts(n - 1, amount.rest))
  {
  }

  /** Storing into the next free slot extends the stored prefix by it. */
  lemma StoreNext(slots: seq<Amount>, i: nat, x: Amount)
    requires i < |slots|
    ensures slots[i := x][..i + 1] == slots[..i] + [x]
  {
  }

  /** Before the loop of `FillBlock` nothing is stored yet. */
  lemma FillStart(whole: Result<Parsed<seq<Amount>>, FormatError>, slots: seq<Amount>, i: nat, left: nat, s: string)
    requires i == 0 && whole == ReadAmounts(left, s)
    ensures whole == Preceded(slots[..i], ReadAmounts(left, s))
  {
    PrecededByNothing(whole);
    assert slots[..i] == [];
  }

  /** The loop invariant of `FillBlock` carried over one stored amount:
      before it, `remaining` amounts were left to read after the first
      `i - 1` stored ones. */
  lemma FillStep(whole: Result<Parsed<seq<Amount>>, FormatError>, before: string, stored: seq<Amount>, remaining: nat,
                 amount: Parsed<int>, slots: seq<Amount>, i: nat, left: nat, rest: string)
    requires 0 < i <= |stored| && 0 < remaining && ReadInteger(before) == Some(amount)
    requires whole == Preceded(stored[..i - 1], ReadAmounts(remaining, before))
    requires slots == stored[i - 1 := amount.value] && left == remaining - 1 && rest == amount.rest
    ensures whole == Preceded(slots[..i], ReadAmounts(left, rest))
  {
    ReadAmountsTurn(remaining, before, amount);
    PrecededTwice(stored[..i - 1], [amount.value], ReadAmounts(left, rest));
    StoreNext(stored, i - 1, amount.value);
  }

  /** The loop of `FillBlock` stopped by a token that is not a number: the
      whole read fails the same way. */
  lemma FillFails(whole: Result<Parsed<seq<Amount>>, FormatError>, stored: seq<Amount>, left: nat, rest: string)
    requires 0 < left && ReadInteger(rest).None?
    requires whole == Preceded(stored, ReadAmounts(left, rest))
    ensures whole == Err(NotANumber)
  {
  }

  /** The loop of `FillBlock` run to the end: the whole read returns the
      stored amounts and the stream where the loop left it. */
  lemma FillDone(whole: Result<Parsed<seq<Amount>>, FormatError>, slots: seq<Amount>, i: nat, left: nat, rest: string)
    requires i == |slots| && left == 0
    requires whole == Preceded(slots[..i], ReadAmounts(left, rest))
    ensures whole == Ok(Parsed(slots, rest))
  {
    assert slots[..i] + [] == slots;
  }

  /** `new double[count]` and the loop `is >> amounts[i]` of `loadFromFile`:
      a fresh block of exactly `count` slots, filled slot by slot. It fails
      exactly when `ReadAmounts` does, with the same error; otherwise the
      block holds the amounts `ReadAmounts` reads, in order, and the stream
      is left where `ReadAmounts` leaves it. */
  method FillBlock(count: nat, s: string) returns (r: Result<Parsed<Buffer>, FormatError>)
    ensures r.Ok? <==> ReadAmounts(count, s).Ok?
    ensures r.Err? ==> r.error == ReadAmounts(count, s).error
    ensures r.Ok? ==> Amounts.Valid(r.value.value) && Contents(r.value.value) == ReadAmounts(count, s).value.value
    ensures r.Ok? ==> r.value.rest == ReadAmounts(count, s).value.rest
    ensures r.Ok? ==> |r.value.value.slots| == r.value.value.count == count
  {
    var slots := FreshSlots(count);
    var rest := s;
    var i := 0;
    ghost var whole := ReadAmounts(count, s);
    ghost var left := count;
    FillStart(whole, slots, i, left, s);
    while i < count
      invariant 0 <= i <= count && left == count - i
      invariant |slots| == count
      invariant whole == Preceded(slots[..i], ReadAmounts(left, rest))
    {
      match ReadInteger(rest)
      case None =>
        FillFails(whole, slots[..i], left, rest);
        return Err(NotANumber);
      case Some(amount) =>
        ghost var before, stored, remaining := rest, slots, left;
        slots := slots[i := amount.value];
        rest := amount.rest;
        i := i + 1;
        left := left - 1;
        FillStep(whole, before, stored, remaining, amount, slots, i, left, rest);
    }
    FillDone(whole, slots, i, left, rest);
    r := Ok(Parsed(Buffer(slots, count), rest));
  }

  /** One history of `loadFromFile`: `is >> count`, then the block filled
      with that many amounts. It fails exactly when `ReadHistory` does, with
      the same error; otherwise the block holds what `ReadHistory` reads. */
  method ReadBlock(s: string) returns (r: Result<Parsed<Buffer>, FormatError>)
    ensures r.Ok? <==> ReadHistory(s).Ok?
    ensures r.Err? ==> r.error == ReadHistory(s).error
    ensures r.Ok? ==> Amounts.Valid(r.value.value) && Contents(r.value.value) == ReadHistory(s).value.value
    ensures r.Ok? ==> r.value.rest == ReadHistory(s).value.rest
    ensures r.Ok? ==> |r.value.value.slots| == r.value.value.count
  {
    var count :- ReadCount(s);
    r := FillBlock(count.value, count.rest);
  }

  /** `loadFromFile` on the layout: the code token and the owner line, then
      the two histories read into fresh blocks. The old blocks are dropped,
      so the result does not depend on them. It fails exactly when the
      value-level read fails; otherwise the layout exposes the record
      `LoadFromFile` reads, each block is exactly as large as its count, and
      the stream is left where `LoadFromFile` leaves it. */
  method LoadLayout(s: string) returns (r: Result<Parsed<Layout>, FormatError>)
    ensures r.Ok? <==> LoadFromFile(s).Ok?
    ensures r.Err? ==> r.error == LoadFromFile(s).error
    ensures r.Ok? ==> Valid(r.value.value) && View(r.value.value) == LoadFromFile(s).value.value
    ensures r.Ok? ==> r.value.rest == LoadFromFile(s).value.rest
    ensures r.Ok? ==> |r.value.value.deposited.slots| == r.value.value.deposited.count
    ensures r.Ok? ==> |r.value.value.withdrawn.slots| == r.value.value.withdrawn.count
  {
    var identity :- ReadIdentity(s);
    var deposited :- ReadBlock(identity.rest);
    var withdrawn :- ReadBlock(deposited.rest);
    r := Ok(Parsed(Layout(identity.value.0, identity.value.1, deposited.value, withdrawn.value), Ignore(withdrawn.rest)));
  }

  /** `addDeposit` on the layout: the sign check, then resize and store. It
      agrees with `BankAccount.AddDeposit` on the exposed value. */
  method AddDepositAt(l: Layout, amount: Amount) returns (r: Layout, thrown: Option<ValidationError>)
    requires Valid(l)
    ensures Valid(r)
    ensures View(r) == AddDeposit(View(l), amount).state
    ensures thrown == AddDeposit(View(l), amount).thrown
    ensures r.withdrawn == l.withdrawn
  {
    if amount < 0 {
      return l, Some(NegativeDeposit);
    }
    var grown := Push(l.deposited, amount);
    r, thrown := l.(deposited := grown), None;
  }

  /** `addWithdrawal` on the layout. */
  method AddWithdrawalAt(l: Layout, amount: Amount) returns (r: Layout, thrown: Option<ValidationError>)
    requires Valid(l)
    ensures Valid(r)
    ensures View(r) == AddWithdrawal(View(l), amount).state
    ensures thrown == AddWithdrawal(View(l), amount).thrown
    ensures r.deposited == l.deposited
  {
    if amount < 0 {
      return l, Some(NegativeWithdrawal);
    }
    var grown := Push(l.withdrawn, amount);
    r, thrown := l.(withdrawn := grown), None;
  }

  /** The copy constructor: an equal record with blocks of the same
      capacities, owning its own storage. */
  method CopyOf(other: Layout) returns (r: Layout)
    requires Valid(other)
    ensures Valid(r) && View(r) == View(other)
    ensures |r.deposited.slots| == |other.deposited.slots| && |r.withdrawn.slots| == |other.withdrawn.slots|
  {
    var deposited := Copy(other.deposited);
    var withdrawn := Copy(other.withdrawn);
    r := Layout(other.code, other.owner, deposited, withdrawn);
  }

  /** `operator=`: when the target is the source itself (`this == &other`,
      given here as `same`) nothing happens; otherwise the target's old
      contents are dropped and replaced by a copy of the source. */
  method Assign(target: Layout, other: Layout, same: bool) returns (r: Layout)
    requires Valid(target) && Valid(other)
    requires same ==> target == other
    ensures Valid(r) && View(r) == View(other)
    ensures same ==> r == target
    ensures |r.deposited.slots| == |other.deposited.slots| && |r.withdrawn.slots| == |other.withdrawn.slots|
  {
    if same {
      return target;
    }
    r := CopyOf(other);
  }

  /** `getBalance` on the layout: the two array totals subtracted. */
  method BalanceOf(l: Layout) returns (balance: int)
    requires Valid(l)
    ensures balance == Balance(View(l))
  {
    var deposited := Total(l.deposited);
    var withdrawn := Total(l.withdrawn);
    balance := deposited - withdrawn;
  }

  /** `hasEqualDepositsAndWithdrawals` on the layout. */
  method EqualFlowsOf(l: Layout) returns (equal: bool)
    requires Valid(l)
    ensures equal <==> HasEqualFlows(View(l))
  {
    var deposited := Total(l.deposited);
    var withdrawn := Total(l.withdrawn);
    equal := deposited == withdrawn;
  }
}

=== FILE: ledger.dfy ===
/** The ledger: the ordered vector of accounts the menu works on, and the
    collection logic of the menu actions — counting accounts per owner,
    selecting the equal-flow accounts, writing and reading whole ledger
    files, and targeting one account by its menu number. */
module Ledger {
  import opened Outcomes
  import opened Seqs
  import opened Text
  import opened BankAccount
  import opened Serial
  import Lex

  /** The largest value a `size_t` account count can hold. */
  const SizeMax: nat := 0xFFFF_FFFF_FFFF_FFFF

  /** The owner names in vector order. */
  function Owners(accs: seq<Account>): (r: seq<string>)
    ensures |r| == |accs| && forall i :: 0 <= i < |accs| ==> r[i] == accs[i].owner
  {
    seq(|accs|, i requires 0 <= i < |accs| => accs[i].owner)
  }

  // ---------------------------------------------------------------------
  // Accounts per owner: a `std::map<std::string, int>`, kept here as its
  // entries in key order.

  datatype Entry = Entry(owner: string, count: nat)

  /** Keys strictly increasing, hence also distinct. */
  predicate Sorted(t: seq<Entry>) {
    forall i, j :: 0 <= i < j < |t| ==> Lex.Less(t[i].owner, t[j].owner)
  }

  /** Every entry counts at least one account. */
  predicate Positive(t: seq<Entry>) {
    forall i :: 0 <= i < |t| ==> t[i].count > 0
  }

  /** `map[name]`: the count stored under name, 0 when there is no entry. */
  function CountOf(t: seq<Entry>, name: string): nat
  {
    if |t| == 0 then 0 else if t[0].owner == name then t[0].count else CountOf(t[1..], name)
  }

  /** A key sorted below every key of t has no entry. */
  lemma {:induction false} CountOfBelow(t: seq<Entry>, name: string)
    requires forall i :: 0 <= i < |t| ==> Lex.Less(name, t[i].owner)
    ensures CountOf(t, name) == 0
  {
    if |t| != 0 {
      Lex.Irreflexive(name);
      CountOfBelow(t[1..], name);
    }
  }

  /** In a sorted map each entry is found under its own key. */
  lemma {:induction false} CountOfEntry(t: seq<Entry>, i: nat)
    requires Sorted(t) && i < |t|
    ensures CountOf(t, t[i].owner) == t[i].count
  {
    if i != 0 {
      assert Lex.Less(t[0].owner, t[i].owner);
      Lex.Irreflexive(t[i].owner);
      CountOfEntry(t[1..], i - 1);
    }
  }

  /** A positive count comes from an entry with that key. */
  lemma {:induction false} CountOfFound(t: seq<Entry>, name: string) returns (i: nat)
    requires CountOf(t, name) > 0
    ensures i < |t| && t[i].owner == name && t[i].count == CountOf(t, name)
  {
    if t[0].owner == name {
      i := 0;
    } else {
      var j := CountOfFound(t[1..], name);
      i := j + 1;
    }
  }

  /** A key below the first key of a sorted map is below all of them. */
  lemma BelowAll(t: seq<Entry>, name: string)
    requires Sorted(t) && |t| != 0 && Lex.Less(name, t[0].owner)
    ensures forall j :: 0 <= j < |t| ==> Lex.Less(name, t[j].owner)
  {
    forall j | 0 <= j < |t|
      ensures Lex.Less(name, t[j].owner)
    {
      if j > 0 {
        Lex.Transitive(name, t[0].owner, t[j].owner);
      }
    }
  }

  /** The first key of a sorted map is below every key of an update of the
      rest, as long as the updated key is above it too. */
  lemma AboveRest(t: seq<Entry>, name: string, rest: seq<Entry>)
    requires Sorted(t) && |t| != 0 && Lex.Less(t[0].owner, name)
    requires forall i :: 0 <= i < |rest| ==> rest[i].owner == name || exists j :: 0 <= j < |t[1..]| && t[1..][j].owner == rest[i].owner
    ensures forall i :: 0 <= i < |rest| ==> Lex.Less(t[0].owner, rest[i].owner)
  {
    forall i | 0 <= i < |rest|
      ensures Lex.Less(t[0].owner, rest[i].owner)
    {
      if rest[i].owner != name {
        var j :| 0 <= j < |t[1..]| && t[1..][j].owner == rest[i].owner;
        assert t[j + 1].owner == rest[i].owner;
      }
    }
  }

  /** `ownerCount[name]++`: add one under name, inserting the key in order
      with count 1 when it is new. */
  function Increment(t: seq<Entry>, name: string): (r: seq<Entry>)
    requires Sorted(t) && Positive(t)
    ensures Sorted(r) && Positive(r)
    ensures forall n :: CountOf(r, n) == CountOf(t, n) + (if n == name then 1 else 0)
    ensures forall i :: 0 <= i < |r| ==> r[i].owner == name || exists j :: 0 <= j < |t| && t[j].owner == r[i].owner
    decreases |t|
  {
    if |t| == 0 then [Entry(name, 1)]
    else if t[0].owner == name then [Entry(name, t[0].count + 1)] + t[1..]
    else if Lex.Less(name, t[0].owner) then
      BelowAll(t, name);
      CountOfBelow(t, name);
      [Entry(name, 1)] + t
    else
      Lex.Connected(name, t[0].owner);
      var rest := Increment(t[1..], name);
      AboveRest(t, name, rest);
      [t[0]] + rest
  }

  /** The counting loop of `displayOwnersWithMultipleAccounts`: afterwards the
      count under each name is the number of accounts that name owns, and
      every entry counts at least one account. */
  method CountOwners(accs: seq<Account>) returns (t: seq<Entry>)
    ensures Sorted(t)
    ensures Positive(t)
    ensures forall n :: CountOf(t, n) == multiset(Owners(accs))[n]
  {
    t := [];
    var k := 0;
    while k < |accs|
      invariant 0 <= k <= |accs|
      invariant Sorted(t)
      invariant Positive(t)
      invariant forall n :: CountOf(t, n) == multiset(Owners(accs[..k]))[n]
    {
      assert Owners(accs[..k + 1]) == Owners(accs[..k]) + [accs[k].owner];
      t := Increment(t, accs[k].owner);
      k := k + 1;
    }
    assert accs[..k] == accs;
  }

  /** The entries whose count exceeds one, in key order. */
  function Shared(t: seq<Entry>): (r: seq<Entry>)
    requires Sorted(t)
    ensures Sorted(r)
    ensures forall e :: e in r <==> e in t && e.count > 1
    decreases |t|
  {
    if |t| == 0 then []
    else
      var rest := Shared(t[1..]);
      assert forall e :: e in rest ==> e in t[1..];
      if t[0].count > 1 then [t[0]] + rest else rest
  }

  /** `displayOwnersWithMultipleAccounts` without the printing: each owner of
      more than one account exactly once, with the number of accounts, in
      ascending order of name, and no other owner. The collected names are
      already in order, so the `std::sort` the source applies to them
      changes nothing. */
  method OwnersWithMultipleAccounts(accs: seq<Account>) returns (report: seq<Entry>)
    ensures Sorted(report)
    ensures forall k :: 0 <= k < |report| ==> report[k].count == multiset(Owners(accs))[report[k].owner] > 1
    ensures forall n :: multiset(Owners(accs))[n] > 1 ==> exists k :: 0 <= k < |report| && report[k].owner == n
  {
    var t := CountOwners(accs);
    report := Shared(t);
    forall k | 0 <= k < |report|
      ensures report[k].count == multiset(Owners(accs))[report[k].owner] > 1
    {
      assert report[k] in t;
      var i :| 0 <= i < |t| && t[i] == report[k];
      CountOfEntry(t, i);
    }
    forall n | multiset(Owners(accs))[n] > 1
      ensures exists k :: 0 <= k < |report| && report[k].owner == n
    {
      var i := CountOfFound(t, n);
      assert t[i] in report;
    }
  }

  // ---------------------------------------------------------------------
  // Accounts with equal deposits and withdrawals.

  /** The positions of the equal-flow accounts, in increasing order. */
  function EqualFlowIndices(accs: seq<Account>): (idx: seq<nat>)
    ensures |idx| <= |accs|
    ensures forall k :: 0 <= k < |idx| ==> idx[k] < |accs| && HasEqualFlows(accs[idx[k]])
    ensures forall k, l :: 0 <= k < l < |idx| ==> idx[k] < idx[l]
    ensures forall i :: 0 <= i < |accs| && HasEqualFlows(accs[i]) ==> i in idx
    decreases |accs|
  {
    if |accs| == 0 then []
    else
      var n := |accs| - 1;
      var front := EqualFlowIndices(accs[..n]);
      assert forall k :: 0 <= k < |front| ==> accs[..n][front[k]] == accs[front[k]];
      front + (if HasEqualFlows(accs[n]) then [n] else [])
  }

  /** The loop of `saveEqualAccountsToFile`: the accounts at exactly those
      positions, in vector order. The input vector is a value and stays as
      it was. */
  function EqualFlowAccounts(accs: seq<Account>): (r: seq<Account>)
    ensures |r| == |EqualFlowIndices(accs)|
    ensures forall k :: 0 <= k < |r| ==> r[k] == accs[EqualFlowIndices(accs)[k]]
    decreases |accs|
  {
    if |accs| == 0 then []
    else
      var n := |accs| - 1;
      var front := EqualFlowAccounts(accs[..n]);
      assert forall k :: 0 <= k < |front| ==> front[k] == accs[EqualFlowIndices(accs[..n])[k]];
      front + (if HasEqualFlows(accs[n]) then [accs[n]] else [])
  }

  // ---------------------------------------------------------------------
  // Ledger files: the account count on one line, then each account's
  // `saveToFile` text in vector order.

  function SaveAll(accs: seq<Account>): string
    decreases |accs|
  {
    if |accs| == 0 then "" else SaveToFile(accs[0]) + SaveAll(accs[1..])
  }

  /** What `saveDataToFile`, `createAccountsFile` and `saveEqualAccountsToFile`
      write: the account count in decimal on the first line, then the
      accounts' texts. */
  function SaveLedger(accs: seq<Account>): (r: string)
    ensures |NatText(|accs|)| < |r|
    ensures r[..|NatText(|accs|)| + 1] == NatText(|accs|) + "\n"
    ensures r[|NatText(|accs|)| + 1..] == SaveAll(accs)
  {
    var head := NatText(|accs|) + "\n";
    assert (head + SaveAll(accs))[..|head|] == head;
    assert (head + SaveAll(accs))[|head|..] == SaveAll(accs);
    head + SaveAll(accs)
  }

  /** The accounts read so far, and either the rest of the stream or the
      reason reading stopped. */
  datatype Batch = Batch(accounts: seq<Account>, status: Result<string, FormatError>)

  /** Every account in the sequence can be written back and read again. */
  predicate AllSerializable(accs: seq<Account>) {
    forall i :: 0 <= i < |accs| ==> Serializable(accs[i])
  }

  /** The loop of `loadDataFromFile`: n successive `loadFromFile` calls, each
      account appended once it is read; the first failure stops the loop. */
  function LoadAccounts(n: nat, s: string): (b: Batch)
    ensures b.status.Ok? ==> |b.accounts| == n
    ensures b.status.Err? ==> |b.accounts| < n
    ensures AllSerializable(b.accounts)
    decreases n
  {
    if n == 0 then Batch([], Ok(s))
    else
      match LoadFromFile(s)
      case Err(e) => Batch([], Err(e))
      case Ok(first) =>
        var more := LoadAccounts(n - 1, first.rest);
        SerializableCons(first.value, more.accounts);
        Batch([first.value] + more.accounts, more.status)
  }

  /** The vector after `loadDataFromFile`, and the error it reported, if any. */
  datatype Loaded = Loaded(accounts: seq<Account>, error: Option<FormatError>)

  /** The account count a ledger file starts with, as read into a `size_t`;
      a count that cannot be read is 0. */
  function DeclaredCount(text: string): (n: nat)
    ensures n <= SizeMax
  {
    match ReadInteger(text)
    case None => 0
    case Some(count) => if 0 <= count.value <= SizeMax then count.value else 0
  }

  /** `loadDataFromFile`, with `None` for a file that does not exist. A
      missing file leaves the vector as it was. Otherwise the count is read,
      the vector is cleared, and the accounts are appended in file order: all
      of them, or those before the first one that fails to read. */
  function LoadData(file: Option<string>, accs: seq<Account>): (r: Loaded)
    ensures file.None? ==> r == Loaded(accs, None)
    ensures file.Some? && r.error.None? ==> |r.accounts| == DeclaredCount(file.value)
    ensures file.Some? && r.error.Some? ==> |r.accounts| < DeclaredCount(file.value) || r.accounts == []
    ensures file.Some? ==> AllSerializable(r.accounts)
  {
    match file
    case None => Loaded(accs, None)
    case Some(text) =>
      match ReadInteger(text)
      case None => Loaded([], None)
      case Some(count) =>
        if count.value < 0 || count.value > SizeMax then Loaded([], Some(CountOutOfRange))
        else
          var b := LoadAccounts(count.value, Ignore(count.rest));
          Loaded(b.accounts, if b.status.Err? then Some(b.status.error) else None)
  }

  lemma SerializableCons(first: Account, more: seq<Account>)
    requires Serializable(first)
    requires AllSerializable(more)
    ensures AllSerializable([first] + more)
  {
    forall i | 0 <= i < |[first] + more|
      ensures Serializable(([first] + more)[i])
    {
      if i != 0 {
        assert ([first] + more)[i] == more[i - 1];
      }
    }
  }

  /** Loading an existing file discards whatever the vector held before. */
  lemma LoadDiscardsPrevious(text: string, accs: seq<Account>)
    ensures LoadData(Some(text), accs) == LoadData(Some(text), [])
  {
  }

  lemma LoadAccountsStep(n: nat, s: string, first: Parsed<Account>, more: Batch)
    requires 0 < n
    requires LoadFromFile(s) == Ok(first)
    requires LoadAccounts(n - 1, first.rest) == more
    ensures LoadAccounts(n, s) == Batch([first.value] + more.accounts, more.status)
  {
  }

  /** SaveAll splits into the first account's text and the rest. */
  lemma SaveAllCons(accs: seq<Account>, rest: string)
    requires |accs| != 0
    ensures SaveAll(accs) + rest == SaveToFile(accs[0]) + (SaveAll(accs[1..]) + rest)
  {
    assert SaveAll(accs) == SaveToFile(accs[0]) + SaveAll(accs[1..]);
    Associate(SaveToFile(accs[0]), SaveAll(accs[1..]), rest);
  }

  /** The accounts' text forms read back, one `loadFromFile` each, up to
      exactly where they end. */
  lemma {:induction false} LoadSavedAccounts(accs: seq<Account>, rest: string)
    requires forall i :: 0 <= i < |accs| ==> Serializable(accs[i])
    ensures LoadAccounts(|accs|, SaveAll(accs) + rest) == Batch(accs, Ok(rest))
    decreases |accs|
  {
    if |accs| == 0 {
      assert SaveAll(accs) + rest == rest;
    } else {
      var tail := SaveAll(accs[1..]) + rest;
      assert Serializable(accs[0]);
      assert forall i :: 0 <= i < |accs[1..]| ==> Serializable(accs[1..][i]) by {
        forall i | 0 <= i < |accs[1..]|
          ensures Serializable(accs[1..][i])
        {
          assert accs[1..][i] == accs[i + 1];
        }
      }
      LoadSavedAccount(accs[0], tail);
      LoadSavedAccounts(accs[1..], rest);
      SaveAllCons(accs, rest);
      LoadAccountsCons(accs, SaveAll(accs) + rest, tail, rest);
    }
  }

  /** The induction step of `LoadSavedAccounts`: the first account read
      from s, then the others from where it ends. */
  lemma LoadAccountsCons(accs: seq<Account>, s: string, tail: string, rest: string)
    requires |accs| != 0
    requires LoadFromFile(s) == Ok(Parsed(accs[0], tail))
    requires LoadAccounts(|accs[1..]|, tail) == Batch(accs[1..], Ok(rest))
    ensures LoadAccounts(|accs|, s) == Batch(accs, Ok(rest))
  {
    HeadTail(accs);
    LoadAccountsStep(|accs[1..]| + 1, s, Parsed(accs[0], tail), Batch(accs[1..], Ok(rest)));
  }

  /** `loadDataFromFile` once the count has been read and every account after it. */
  lemma LoadDataSteps(text: string, previous: seq<Account>, count: Parsed<int>, rest: string, accs: seq<Account>)
    requires ReadInteger(text) == Some(count) && 0 <= count.value <= SizeMax
    requires LoadAccounts(count.value, Ignore(count.rest)) == Batch(accs, Ok(rest))
    ensures LoadData(Some(text), previous) == Loaded(accs, None)
  {
  }

  lemma SaveLedgerParts(accs: seq<Account>)
    ensures SaveLedger(accs) == IntText(|accs|) + ("\n" + SaveAll(accs))
  {
    assert IntText(|accs|) == NatText(|accs|);
    Associate(NatText(|accs|), "\n", SaveAll(accs));
  }

  /** Stated with `+ ""` so that it matches, as written, the empty `rest`
      that `LoadSavedAccounts` is called with below. */
  lemma IgnoreNewline(body: string)
    ensures Ignore("\n" + body) == body + ""
  {
  }

  /** Round trip of a whole ledger: loading a saved ledger gives back the
      same accounts in the same order, with no error, whatever the vector
      held before. */
  lemma {:induction false} LoadSavedLedger(accs: seq<Account>, previous: seq<Account>)
    requires forall i :: 0 <= i < |accs| ==> Serializable(accs[i])
    requires |accs| <= SizeMax
    ensures LoadData(Some(SaveLedger(accs)), previous) == Loaded(accs, None)
  {
    var body := SaveAll(accs);
    SaveLedgerParts(accs);
    IgnoreNewline(body);
    ReadIntText(|accs|, "\n" + body);
    LoadSavedAccounts(accs, "");
    LoadDataSteps(SaveLedger(accs), previous, Parsed(|accs|, "\n" + body), "", accs);
  }

  /** A ledger file starts with its count line. */
  /** The accounts' texts follow one another in vector order: the text of
      xs + ys is that of xs followed by that of ys, and one account's text
      is its `saveToFile` output. */
  lemma {:induction false} SaveAllConcat(xs: seq<Account>, ys: seq<Account>)
    ensures SaveAll(xs + ys) == SaveAll(xs) + SaveAll(ys)
    ensures |xs| == 1 ==> SaveAll(xs) == SaveToFile(xs[0])
    decreases |xs|
  {
    if |xs| == 0 {
      assert xs + ys == ys;
    } else {
      assert (xs + ys)[1..] == xs[1..] + ys;
      SaveAllConcat(xs[1..], ys);
      Associate(SaveToFile(xs[0]), SaveAll(xs[1..]), SaveAll(ys));
      if |xs| == 1 {
        assert SaveAll(xs[1..]) == "";
      }
    }
  }

  /** The session cycle: whatever `loadDataFromFile` read from an existing
      file at start-up, `saveDataToFile` writes a file that loads back as
      exactly those accounts, with no error. */
  lemma ReloadAfterLoad(text: string, previous: seq<Account>, later: seq<Account>)
    ensures LoadData(Some(SaveLedger(LoadData(Some(text), previous).accounts)), later)
         == Loaded(LoadData(Some(text), previous).accounts, None)
  {
    var accs := LoadData(Some(text), previous).accounts;
    assert |accs| <= SizeMax;
    LoadSavedLedger(accs, later);
  }

  /** `createAccountsFile`: nothing is written for an empty vector;
      otherwise the whole ledger. */
  function AccountsFile(accs: seq<Account>): (r: Option<string>)
    ensures r.None? <==> |accs| == 0
    ensures r.Some? ==> |r.value| > 0 && IsAsciiDigit(r.value[0])
    ensures r.Some? ==> |NatText(|accs|)| < |r.value| && r.value[..|NatText(|accs|)| + 1] == NatText(|accs|) + "\n"
  {
    if |accs| == 0 then None else Some(SaveLedger(accs))
  }

  /** `saveEqualAccountsToFile`: nothing is written for an empty vector or
      when no account has equal flows; otherwise a ledger of the equal-flow
      accounts. */
  function EqualAccountsFile(accs: seq<Account>): (r: Option<string>)
    ensures r.None? <==> forall i :: 0 <= i < |accs| ==> !HasEqualFlows(accs[i])
  {
    if |accs| == 0 then None
    else
      var equal := EqualFlowAccounts(accs);
      if |equal| == 0 then None else Some(SaveLedger(equal))
  }

  /** What `createAccountsFile` writes reads back as the vector itself. */
  lemma AccountsFileReadsBack(accs: seq<Account>, previous: seq<Account>)
    requires forall i :: 0 <= i < |accs| ==> Serializable(accs[i])
    requires |accs| <= SizeMax
    ensures AccountsFile(accs).Some? ==> LoadData(AccountsFile(accs), previous) == Loaded(accs, None)
  {
    LoadSavedLedger(accs, previous);
  }

  /** Every equal-flow account is one of the vector's accounts. */
  lemma EqualFlowAccountsFrom(accs: seq<Account>)
    ensures forall k :: 0 <= k < |EqualFlowAccounts(accs)| ==> EqualFlowAccounts(accs)[k] in accs
  {
    var idx := EqualFlowIndices(accs);
    forall k | 0 <= k < |EqualFlowAccounts(accs)|
      ensures EqualFlowAccounts(accs)[k] in accs
    {
      assert EqualFlowAccounts(accs)[k] == accs[idx[k]];
    }
  }

  lemma EqualAccountsFileText(accs: seq<Account>)
    ensures EqualAccountsFile(accs).Some? ==> EqualAccountsFile(accs) == Some(SaveLedger(EqualFlowAccounts(accs)))
  {
  }

  /** What `saveEqualAccountsToFile` writes reads back as exactly the
      equal-flow accounts, in vector order. */
  lemma EqualAccountsFileReadsBack(accs: seq<Account>, previous: seq<Account>)
    requires forall i :: 0 <= i < |accs| ==> Serializable(accs[i])
    requires |accs| <= SizeMax
    ensures EqualAccountsFile(accs).Some? ==>
      LoadData(EqualAccountsFile(accs), previous) == Loaded(EqualFlowAccounts(accs), None)
  {
    var equal := EqualFlowAccounts(accs);
    EqualFlowAccountsFrom(accs);
    assert forall k :: 0 <= k < |equal| ==> Serializable(equal[k]);
    EqualAccountsFileText(accs);
    LoadSavedLedger(equal, previous);
  }

  // ---------------------------------------------------------------------
  // Menu actions on one account.

  /** The number `selectAccount` shows in front of the account at index i. */
  function MenuLabel(i: nat): nat {
    i + 1
  }

  /** `selectAccount`: the choice, already validated to lie in [1, size],
      names the account listed under that number. */
  function SelectAccount(choice: int, size: nat): (i: nat)
    requires 1 <= choice <= size
    ensures i < size && MenuLabel(i) == choice
  {
    choice - 1
  }

  /** `addDepositToAccount` past the prompts: nothing happens to an empty
      vector; otherwise only the selected account takes the deposit (a
      refused one is caught and reported). */
  function DepositToAccount(accs: seq<Account>, choice: int, amount: int): (r: seq<Account>)
    requires |accs| > 0 ==> 1 <= choice <= |accs|
    ensures |r| == |accs|
    ensures |accs| == 0 ==> r == accs
    ensures |accs| > 0 ==> r[choice - 1] == AddDeposit(accs[choice - 1], amount).state
    ensures forall j :: 0 <= j < |accs| && j != choice - 1 ==> r[j] == accs[j]
  {
    if |accs| == 0 then accs
    else
      var i := SelectAccount(choice, |accs|);
      accs[i := AddDeposit(accs[i], amount).state]
  }

  /** `addWithdrawalToAccount` past the prompts. */
  function WithdrawalToAccount(accs: seq<Account>, choice: int, amount: int): (r: seq<Account>)
    requires |accs| > 0 ==> 1 <= choice <= |accs|
    ensures |r| == |accs|
    ensures |accs| == 0 ==> r == accs
    ensures |accs| > 0 ==> r[choice - 1] == AddWithdrawal(accs[choice - 1], amount).state
    ensures forall j :: 0 <= j < |accs| && j != choice - 1 ==> r[j] == accs[j]
  {
    if |accs| == 0 then accs
    else
      var i := SelectAccount(choice, |accs|);
      accs[i := AddWithdrawal(accs[i], amount).state]
  }

  /** `addBankAccount` past the prompts: a default record receives the code
      and the name through `operator>>`; it is appended only when neither
      setter threw, so a half-updated record never reaches the vector. */
  function AddBankAccount(accs: seq<Account>, code: string, name: string): (r: seq<Account>)
    ensures ValidCode(code) && name != [] ==> r == accs + [Account(code, name, [], [])]
    ensures !(ValidCode(code) && name != []) ==> r == accs
  {
    var read := ReadInto(Default(), code, name);
    if read.thrown.Some? then accs else accs + [read.state]
  }

  predicate AllWellFormed(accs: seq<Account>) {
    forall i :: 0 <= i < |accs| ==> WellFormed(accs[i])
  }

  /** Adding an account keeps every account well formed. */
  lemma AddKeepsWellFormed(accs: seq<Account>, code: string, name: string)
    requires AllWellFormed(accs)
    ensures AllWellFormed(AddBankAccount(accs, code, name))
  {
    var r := AddBankAccount(accs, code, name);
    if ValidCode(code) && name != [] {
      assert r[|accs|] == Account(code, name, [], []);
      assert forall i :: 0 <= i < |accs| ==> r[i] == accs[i];
    }
  }

  /** A deposit or a withdrawal on a selected account keeps every account
      well formed; only loading a file can bring in one that is not. */
  lemma FlowsKeepWellFormed(accs: seq<Account>, choice: int, amount: int)
    requires AllWellFormed(accs)
    requires |accs| > 0 ==> 1 <= choice <= |accs|
    ensures AllWellFormed(DepositToAccount(accs, choice, amount))
    ensures AllWellFormed(WithdrawalToAccount(accs, choice, amount))
  {
    if |accs| > 0 {
      var a := accs[choice - 1];
      var d := AddDeposit(a, amount).state;
      var w := AddWithdrawal(a, amount).state;
      assert WellFormed(d) by {
        if amount >= 0 {
          assert d.deposits == a.deposits + [amount];
        }
      }
      assert WellFormed(w) by {
        if amount >= 0 {
          assert w.withdrawals == a.withdrawals + [amount];
        }
      }
    }
  }
}

=== FILE: lex.dfy ===
/** The ordering `std::string::operator<` uses, which also orders the keys of a
    `std::map<std::string, int>`: character by character, and a proper prefix
    comes first. */
module Lex {

  predicate Less(a: string, b: string) {
    if |a| == 0 then |b| != 0
    else if |b| == 0 then false
    else if a[0] != b[0] then a[0] < b[0]
    else Less(a[1..], b[1..])
  }

  lemma {:induction false} Irreflexive(a: string)
    ensures !Less(a, a)
    decreases |a|
  {
    if |a| != 0 {
      Irreflexive(a[1..]);
    }
  }

  lemma {:induction false} Asymmetric(a: string, b: string)
    requires Less(a, b)
    ensures !Less(b, a)
    decreases |a|
  {
    if |a| != 0 && a[0] == b[0] {
      Asymmetric(a[1..], b[1..]);
    }
  }

  lemma {:induction false} Transitive(a: string, b: string, c: string)
    requires Less(a, b) && Less(b, c)
    ensures Less(a, c)
    decreases |a|
  {
    if |a| != 0 && a[0] == b[0] && b[0] == c[0] {
      Transitive(a[1..], b[1..], c[1..]);
    }
  }

  /** Any two different strings are ordered one way or the other. */
  lemma {:induction false} Connected(a: string, b: string)
    requires a != b
    ensures Less(a, b) || Less(b, a)
    decreases |a|
  {
    if |a| != 0 && |b| != 0 && a[0] == b[0] {
      assert a == [a[0]] + a[1..] && b == [b[0]] + b[1..];
      Connected(a[1..], b[1..]);
    }
  }
}

=== FILE: outcomes.dfy ===
/** Failure-carrying datatypes shared by the model: the exceptions the account
    operations throw, the ways a persisted file can fail to parse, and the
    Option/Result wrappers that carry them. */
module Outcomes {

  datatype Option<+T> = None | Some(value: T)

  /** A value read from the front of a stream, together with what is left. */
  datatype Parsed<+T> = Parsed(value: T, rest: string)

  /** The `std::invalid_argument` exceptions of the account record, one per message. */
  datatype ValidationError =
    | CodeLength          // the code is not exactly 6 characters
    | CodeFirstChar       // the first character is not a letter
    | CodeDigits          // one of the last 5 characters is not a digit
    | EmptyOwner          // the owner name is empty
    | NegativeDeposit     // a deposit below zero
    | NegativeWithdrawal  // a withdrawal below zero

  /** Why reading an account (or a ledger) from text stopped. */
  datatype FormatError =
    | MissingToken        // no code token before the end of the stream
    | CodeTooLong         // the code token does not fit its 10-byte buffer
    | BadOwnerLine        // getline stored nothing, or the line overflows its 256-byte buffer
    | NotANumber          // no digits where a count or an amount was expected
    | CountOutOfRange     // a count that is negative or does not fit its integer type

  /** Either a value or an error; usable with `:-`. */
  datatype Result<+T, +E> = Ok(value: T) | Err(error: E) {

    predicate IsFailure() {
      Err?
    }

    function PropagateFailure<U>(): Result<U, E>
      requires Err?
    {
      Err(error)
    }

    function Extract(): T
      requires Ok?
    {
      value
    }
  }
}

=== FILE: seqs.dfy ===
/** Regrouping facts about sequences, stated over abstract sequences so that
    the lemmas using them need not unfold the pieces. */
module Seqs {

  /** A non-empty sequence is its head followed by its tail. */
  lemma HeadTail<T>(xs: seq<T>)
    requires |xs| != 0
    ensures [xs[0]] + xs[1..] == xs && |xs[1..]| + 1 == |xs|
  {
  }

  lemma Associate<T>(a: seq<T>, b: seq<T>, c: seq<T>)
    ensures a + b + c == a + (b + c)
  {
  }

  lemma Regroup<T>(sep: seq<T>, a: seq<T>, b: seq<T>, rest: seq<T>)
    ensures sep + (a + sep + b) + rest == sep + a + (sep + b + rest)
  {
  }
}

=== FILE: serial.dfy ===
/** The line-oriented text form of one account: `saveToFile` writes it and
    `loadFromFile` reads it back from a stream.

      <code>
      <owner>
      <deposit count>
      <deposit>            (one line each)
      <withdrawal count>
      <withdrawal>         (one line each)
*/
module Serial {
  import opened Outcomes
  import opened Seqs
  import opened Text
  import opened Amounts
  import opened BankAccount

  /** `char code[10]`: a code token of at most 9 characters fits. */
  const CodeBufferSize: nat := 10
  /** `char name[256]`, the size handed to `getline`. */
  const NameBufferSize: nat := 256
  /** The largest value an `int` count can hold. */
  const IntMax: nat := 0x7FFF_FFFF

  /** One amount per line. */
  function AmountLines(xs: seq<Amount>): string
    decreases |xs|
  {
    if |xs| == 0 then "" else IntText(xs[0]) + "\n" + AmountLines(xs[1..])
  }

  /** A count line followed by that many amount lines. */
  function HistoryText(xs: seq<Amount>): string {
    NatText(|xs|) + "\n" + AmountLines(xs)
  }

  /** The number of line breaks in s. */
  function LineBreaks(s: string): nat {
    multiset(s)['\n']
  }

  /** A numeral is written on one line. */
  lemma NumeralHasNoBreak(x: int)
    ensures LineBreaks(IntText(x)) == 0
  {
    var digits := NatText(if x < 0 then -x else x);
    forall i | 0 <= i < |digits|
      ensures digits[i] != '\n'
    {
    }
    assert IntText(x) == (if x < 0 then "-" else "") + digits;
  }

  /** Each amount takes exactly one line. */
  lemma {:induction false} AmountLinesBreaks(xs: seq<Amount>)
    ensures LineBreaks(AmountLines(xs)) == |xs|
    decreases |xs|
  {
    if |xs| != 0 {
      NumeralHasNoBreak(xs[0]);
      AmountLinesBreaks(xs[1..]);
      assert AmountLines(xs) == IntText(xs[0]) + "\n" + AmountLines(xs[1..]);
    }
  }

  /** `saveToFile`. */
  function SaveToFile(a: Account): string {
    a.code + "\n" + a.owner + "\n" + HistoryText(a.deposits) + HistoryText(a.withdrawals)
  }

  /** The shape of `saveToFile`'s text: it starts with the code line and
      ends with a line break, and besides any line breaks inside the code or
      the owner it holds exactly one per field line and one per amount. */
  lemma SaveToFileLayout(a: Account)
    ensures |a.code| < |SaveToFile(a)| && SaveToFile(a)[..|a.code| + 1] == a.code + "\n"
    ensures SaveToFile(a)[|SaveToFile(a)| - 1] == '\n'
    ensures LineBreaks(SaveToFile(a)) == LineBreaks(a.code) + LineBreaks(a.owner) + 4 + |a.deposits| + |a.withdrawals|
  {
    SaveToFileStarts(a);
    SaveToFileEnds(a);
    SaveToFileBreaks(a);
  }

  lemma SaveToFileStarts(a: Account)
    ensures |a.code| < |SaveToFile(a)| && SaveToFile(a)[..|a.code| + 1] == a.code + "\n"
  {
    var head := a.code + "\n";
    var body := a.owner + "\n" + HistoryText(a.deposits) + HistoryText(a.withdrawals);
    assert SaveToFile(a) == head + body;
    assert (head + body)[..|head|] == head;
  }

  lemma SaveToFileEnds(a: Account)
    ensures SaveToFile(a)[|SaveToFile(a)| - 1] == '\n'
  {
    var front := a.code + "\n" + a.owner + "\n" + HistoryText(a.deposits);
    EndsWithBreak(a.withdrawals);
    assert SaveToFile(a) == front + HistoryText(a.withdrawals);
  }

  lemma SaveToFileBreaks(a: Account)
    ensures LineBreaks(SaveToFile(a)) == LineBreaks(a.code) + LineBreaks(a.owner) + 4 + |a.deposits| + |a.withdrawals|
  {
    HistoryBreaks(a.deposits);
    HistoryBreaks(a.withdrawals);
    LineParts(a.code, a.owner, HistoryText(a.deposits), HistoryText(a.withdrawals));
  }

  /** Line breaks of the two field lines followed by two blocks. */
  lemma LineParts(code: string, owner: string, first: string, second: string)
    ensures LineBreaks(code + "\n" + owner + "\n" + first + second)
         == LineBreaks(code) + LineBreaks(owner) + 2 + LineBreaks(first) + LineBreaks(second)
  {
    assert multiset(code + "\n" + owner + "\n" + first + second)
        == multiset(code) + multiset("\n") + multiset(owner) + multiset("\n") + multiset(first) + multiset(second);
  }

  lemma BreaksConcat(s: string, t: string)
    ensures LineBreaks(s + t) == LineBreaks(s) + LineBreaks(t)
  {
    assert multiset(s + t) == multiset(s) + multiset(t);
  }

  /** A history takes its count line and one line per amount. */
  lemma HistoryBreaks(xs: seq<Amount>)
    ensures LineBreaks(HistoryText(xs)) == 1 + |xs|
  {
    NumeralHasNoBreak(|xs|);
    AmountLinesBreaks(xs);
    assert IntText(|xs|) == NatText(|xs|);
    BreaksConcat(NatText(|xs|), "\n");
    BreaksConcat(NatText(|xs|) + "\n", AmountLines(xs));
  }

  /** A history's text ends with a line break. */
  lemma EndsWithBreak(xs: seq<Amount>)
    ensures |HistoryText(xs)| > 0 && HistoryText(xs)[|HistoryText(xs)| - 1] == '\n'
  {
    if |xs| != 0 {
      var tail := xs[1..];
      if |tail| == 0 {
        assert AmountLines(tail) == [];
      } else {
        EndsWithBreak(tail);
        assert AmountLines(xs) == IntText(xs[0]) + "\n" + AmountLines(tail);
        assert HistoryText(tail) == NatText(|tail|) + "\n" + AmountLines(tail);
      }
    }
  }

  /** `is >> count` for an `int` count whose array is then allocated with
      `new double[count]`: no digits fails the stream, a value outside `int`
      fails it too, and a negative one makes the allocation throw. */
  function ReadCount(s: string): (r: Result<Parsed<nat>, FormatError>)
    ensures r.Ok? ==> r.value.value <= IntMax && |r.value.rest| < |s|
  {
    match ReadInteger(s)
    case None => Err(NotANumber)
    case Some(p) =>
      if p.value < 0 || p.value > IntMax then Err(CountOutOfRange) else Ok(Parsed(p.value, p.rest))
  }

  /** n successive `is >> amount` reads. */
  function ReadAmounts(n: nat, s: string): (r: Result<Parsed<seq<Amount>>, FormatError>)
    ensures r.Ok? ==> |r.value.value| == n && |r.value.rest| <= |s|
    decreases n
  {
    if n == 0 then Ok(Parsed([], s))
    else
      match ReadInteger(s)
      case None => Err(NotANumber)
      case Some(first) =>
        var more :- ReadAmounts(n - 1, first.rest);
        Ok(Parsed([first.value] + more.value, more.rest))
  }

  /** The first two reads of `loadFromFile`: the code token, one skipped
      character, and the owner line. */
  function ReadIdentity(s: string): (r: Result<Parsed<(string, string)>, FormatError>)
    ensures r.Ok? ==> 0 < |r.value.value.0| < CodeBufferSize && |r.value.value.1| < NameBufferSize
    ensures r.Ok? ==> forall i :: 0 <= i < |r.value.value.0| ==> !IsSpace(r.value.value.0[i])
    ensures r.Ok? ==> forall i :: 0 <= i < |r.value.value.1| ==> r.value.value.1[i] != '\n'
  {
    match ReadToken(s)
    case None => Err(MissingToken)
    case Some(code) =>
      if |code.value| >= CodeBufferSize then Err(CodeTooLong)
      else
        match GetLine(Ignore(code.rest), NameBufferSize)
        case None => Err(BadOwnerLine)
        case Some(owner) => Ok(Parsed((code.value, owner.value), owner.rest))
  }

  /** A count, then that many amounts. */
  function ReadHistory(s: string): (r: Result<Parsed<seq<Amount>>, FormatError>)
    ensures r.Ok? ==> |r.value.value| <= IntMax
  {
    var count :- ReadCount(s);
    ReadAmounts(count.value, count.rest)
  }

  /** `loadFromFile`: the identity, the deposits, the withdrawals, and one
      skipped character after the last amount. Code and owner are stored as
      read, without the validation the constructor and setters apply. */
  function LoadFromFile(s: string): (r: Result<Parsed<Account>, FormatError>)
    ensures r.Ok? ==> 0 < |r.value.value.code| < CodeBufferSize && |r.value.value.owner| < NameBufferSize
    ensures r.Ok? ==> |r.value.value.deposits| <= IntMax && |r.value.value.withdrawals| <= IntMax
    ensures r.Ok? ==> Serializable(r.value.value)
  {
    var identity :- ReadIdentity(s);
    var deposits :- ReadHistory(identity.rest);
    var withdrawals :- ReadHistory(deposits.rest);
    Ok(Parsed(Account(identity.value.0, identity.value.1, deposits.value, withdrawals.value), Ignore(withdrawals.rest)))
  }

  /** What an account must satisfy for its text form to read back: a code
      token that fits its buffer and has no white space, an owner line that
      fits its buffer, and counts an `int` holds. */
  predicate Serializable(a: Account) {
    && 0 < |a.code| < CodeBufferSize
    && (forall i :: 0 <= i < |a.code| ==> !IsSpace(a.code[i]))
    && |a.owner| < NameBufferSize
    && (forall i :: 0 <= i < |a.owner| ==> a.owner[i] != '\n')
    && |a.deposits| <= IntMax && |a.withdrawals| <= IntMax
  }

  /** Every record the validating operations produce is serialisable, as
      long as its owner fits one line of the name buffer and its histories
      fit `int` counts. */
  lemma WellFormedIsSerializable(a: Account)
    requires WellFormed(a)
    requires |a.owner| < NameBufferSize && forall i :: 0 <= i < |a.owner| ==> a.owner[i] != '\n'
    requires |a.deposits| <= IntMax && |a.withdrawals| <= IntMax
    ensures Serializable(a)
  {
  }

  lemma {:induction false} ReadCountBack(n: nat, rest: string)
    requires n <= IntMax
    ensures ReadCount(NatText(n) + "\n" + rest) == Ok(Parsed(n, "\n" + rest))
  {
    assert NatText(n) + "\n" + rest == IntText(n) + ("\n" + rest);
    ReadIntText(n, "\n" + rest);
  }

  /** A number read skips the line break in front of it. */
  lemma {:induction false} ReadHistorySkipsNewline(s: string)
    ensures ReadHistory("\n" + s) == ReadHistory(s)
  {
    assert "\n" + s == ['\n'] + s;
    ReadIntegerSkipsSpace('\n', s);
  }

  /** One step of `ReadAmounts`: a number, then the remaining n - 1. */
  lemma ReadAmountsStep(n: nat, s: string, first: Parsed<int>, more: Parsed<seq<Amount>>)
    requires 0 < n
    requires ReadInteger(s) == Some(first)
    requires ReadAmounts(n - 1, first.rest) == Ok(more)
    ensures ReadAmounts(n, s) == Ok(Parsed([first.value] + more.value, more.rest))
  {
  }

  /** An amount line after the newline that ends the previous line reads back. */
  lemma {:induction false} ReadAmountLine(x: Amount, tail: string)
    requires tail == [] || tail[0] == '\n'
    ensures ReadInteger("\n" + IntText(x) + tail) == Some(Parsed(x, tail))
  {
    assert "\n" + IntText(x) + tail == ['\n'] + (IntText(x) + tail);
    ReadIntegerSkipsSpace('\n', IntText(x) + tail);
    ReadIntText(x, tail);
  }

  lemma AmountLinesCons(xs: seq<Amount>, rest: string)
    requires |xs| != 0
    ensures "\n" + AmountLines(xs) + rest == "\n" + IntText(xs[0]) + ("\n" + AmountLines(xs[1..]) + rest)
  {
    var head, tail := IntText(xs[0]), AmountLines(xs[1..]);
    assert AmountLines(xs) == head + "\n" + tail;
    Regroup("\n", head, tail, rest);
  }

  /** The induction step of `ReadAmountsBack`: the first amount read from
      s, then the others from where it ends. */
  lemma ReadAmountsCons(xs: seq<Amount>, s: string, tail: string, out: string)
    requires |xs| != 0
    requires ReadInteger(s) == Some(Parsed(xs[0], tail))
    requires ReadAmounts(|xs[1..]|, tail) == Ok(Parsed(xs[1..], out))
    ensures ReadAmounts(|xs|, s) == Ok(Parsed(xs, out))
  {
    HeadTail(xs);
    ReadAmountsStep(|xs[1..]| + 1, s, Parsed(xs[0], tail), Parsed(xs[1..], out));
  }

  /** Reading back n amount lines, starting just before the newline that
      ends the count line, returns the amounts and stops before the newline
      that ends the last line. */
  lemma {:induction false} ReadAmountsBack(xs: seq<Amount>, rest: string)
    ensures ReadAmounts(|xs|, "\n" + AmountLines(xs) + rest) == Ok(Parsed(xs, "\n" + rest))
    decreases |xs|
  {
    if |xs| != 0 {
      var tail := "\n" + AmountLines(xs[1..]) + rest;
      AmountLinesCons(xs, rest);
      ReadAmountLine(xs[0], tail);
      ReadAmountsBack(xs[1..], rest);
      ReadAmountsCons(xs, "\n" + AmountLines(xs) + rest, tail, "\n" + rest);
    } else {
      assert "\n" + AmountLines(xs) + rest == "\n" + rest;
    }
  }

  /** `ReadHistory` once its count and its amounts have been read. */
  lemma ReadHistorySteps(s: string, count: Parsed<nat>, amounts: Parsed<seq<Amount>>)
    requires ReadCount(s) == Ok(count)
    requires ReadAmounts(count.value, count.rest) == Ok(amounts)
    ensures ReadHistory(s) == Ok(amounts)
  {
  }

  lemma HistoryTextParts(xs: seq<Amount>, rest: string)
    ensures HistoryText(xs) + rest == NatText(|xs|) + "\n" + (AmountLines(xs) + rest)
  {
    Associate(NatText(|xs|) + "\n", AmountLines(xs), rest);
  }

  lemma {:induction false} ReadHistoryBack(xs: seq<Amount>, rest: string)
    requires |xs| <= IntMax
    ensures ReadHistory(HistoryText(xs) + rest) == Ok(Parsed(xs, "\n" + rest))
  {
    var body := AmountLines(xs) + rest;
    HistoryTextParts(xs, rest);
    ReadCountBack(|xs|, body);
    Associate("\n", AmountLines(xs), rest);
    ReadAmountsBack(xs, rest);
    ReadHistorySteps(HistoryText(xs) + rest, Parsed(|xs|, "\n" + body), Parsed(xs, "\n" + rest));
  }

  /** `ReadIdentity` once the token and the owner line have been read. */
  lemma ReadIdentitySteps(s: string, code: Parsed<string>, owner: Parsed<string>)
    requires ReadToken(s) == Some(code) && |code.value| < CodeBufferSize
    requires GetLine(Ignore(code.rest), NameBufferSize) == Some(owner)
    ensures ReadIdentity(s) == Ok(Parsed((code.value, owner.value), owner.rest))
  {
  }

  lemma IgnoreFirst(c: char, rest: string)
    ensures Ignore([c] + rest) == rest
  {
    assert ([c] + rest)[1..] == rest;
  }

  lemma {:induction false} ReadIdentityBack(code: string, owner: string, rest: string)
    requires 0 < |code| < CodeBufferSize && forall i :: 0 <= i < |code| ==> !IsSpace(code[i])
    requires |owner| < NameBufferSize && forall i :: 0 <= i < |owner| ==> owner[i] != '\n'
    ensures ReadIdentity(code + "\n" + owner + "\n" + rest) == Ok(Parsed((code, owner), rest))
  {
    var line := owner + "\n" + rest;
    assert code + "\n" + owner + "\n" + rest == code + (['\n'] + line);
    ReadTokenBack(code, ['\n'] + line);
    IgnoreFirst('\n', line);
    GetLineBack(owner, NameBufferSize, rest);
    ReadIdentitySteps(code + "\n" + owner + "\n" + rest, Parsed(code, ['\n'] + line), Parsed(owner, rest));
  }

  /** `loadFromFile` once its three reads have succeeded. */
  lemma LoadFromFileSteps(s: string, identity: Parsed<(string, string)>, deposits: Parsed<seq<Amount>>, withdrawals: Parsed<seq<Amount>>)
    requires ReadIdentity(s) == Ok(identity)
    requires ReadHistory(identity.rest) == Ok(deposits)
    requires ReadHistory(deposits.rest) == Ok(withdrawals)
    ensures LoadFromFile(s) == Ok(Parsed(Account(identity.value.0, identity.value.1, deposits.value, withdrawals.value), Ignore(withdrawals.rest)))
  {
  }

  lemma SaveToFileParts(a: Account, rest: string)
    ensures SaveToFile(a) + rest == a.code + "\n" + a.owner + "\n" + (HistoryText(a.deposits) + (HistoryText(a.withdrawals) + rest))
  {
  }

  /** Round trip: whatever follows an account's text form, `loadFromFile`
      gives back the account (code, owner, both histories in order) and
      leaves the stream exactly where that text ends. */
  lemma {:induction false} LoadSavedAccount(a: Account, rest: string)
    requires Serializable(a)
    ensures LoadFromFile(SaveToFile(a) + rest) == Ok(Parsed(a, rest))
  {
    var afterDeposits := HistoryText(a.withdrawals) + rest;
    var afterOwner := HistoryText(a.deposits) + afterDeposits;
    SaveToFileParts(a, rest);
    ReadIdentityBack(a.code, a.owner, afterOwner);
    ReadHistoryBack(a.deposits, afterDeposits);
    ReadHistorySkipsNewline(afterDeposits);
    ReadHistoryBack(a.withdrawals, rest);
    LoadFromFileSteps(SaveToFile(a) + rest, Parsed((a.code, a.owner), afterOwner),
      Parsed(a.deposits, "\n" + afterDeposits), Parsed(a.withdrawals, "\n" + rest));
  }

  /** The caveat of the round trip: `loadFromFile` accepts a record the
      validating constructor would refuse, for instance a malformed code and
      an empty owner line. */
  lemma LoadSkipsValidation()
    ensures LoadFromFile("zz\n\n0\n0\n") == Ok(Parsed(Account("zz", "", [], []), ""))
    ensures !WellFormed(Account("zz", "", [], []))
  {
    var a := Account("zz", "", [], []);
    assert DigitChar(0) == '0';
    assert NatText(0) == "0";
    assert HistoryText([]) == "0\n";
    // `LoadSavedAccount` is stated for a text followed by `rest`; here `rest` is empty.
    assert SaveToFile(a) + "" == "zz\n\n0\n0\n";
    LoadSavedAccount(a, "");
  }
}

=== FILE: text.dfy ===
/** Characters, decimal numerals and the handful of `std::istream` reads the
    persisted format relies on. A stream is modelled as the string of
    characters not yet consumed; every read returns what it extracted and the
    rest of the stream. */
module Text {
  import opened Outcomes

  /** `std::isalpha` in the "C" locale. */
  predicate IsAsciiLetter(c: char) {
    'A' <= c <= 'Z' || 'a' <= c <= 'z'
  }

  /** `std::isdigit`. */
  predicate IsAsciiDigit(c: char) {
    '0' <= c <= '9'
  }

  /** `std::isspace` in the "C" locale: space, tab, newline, vertical tab, form feed, carriage return. */
  predicate IsSpace(c: char) {
    c == ' ' || '\t' <= c <= '\r'
  }

  predicate IsNotSpace(c: char) {
    !IsSpace(c)
  }

  predicate IsNotNewline(c: char) {
    c != '\n'
  }

  predicate AllDigits(s: string) {
    forall i :: 0 <= i < |s| ==> IsAsciiDigit(s[i])
  }

  function DigitChar(d: nat): (c: char)
    requires d < 10
    ensures IsAsciiDigit(c)
  {
    ('0' as int + d) as char
  }

  function DigitValue(c: char): (d: nat)
    requires IsAsciiDigit(c)
    ensures d < 10 && DigitChar(d) == c
  {
    c as int - '0' as int
  }

  /** The decimal numeral `os << n` writes for a non-negative integer: digits only, no leading zero. */
  function NatText(n: nat): (r: string)
    ensures 0 < |r| && AllDigits(r)
    ensures r[0] == '0' ==> r == "0"
    decreases n
  {
    if n < 10 then [DigitChar(n)] else NatText(n / 10) + [DigitChar(n % 10)]
  }

  /** The numeral of a signed integer: a '-' in front of a negative one. */
  function IntText(x: int): (r: string)
    ensures 0 < |r| && (r[0] == '-' || IsAsciiDigit(r[0]))
    ensures (r[0] == '-') <==> x < 0
  {
    if x < 0 then "-" + NatText(-x) else NatText(x)
  }

  /** The number a run of decimal digits denotes. */
  function Value(ds: string): nat
    requires AllDigits(ds)
  {
    if |ds| == 0 then 0 else 10 * Value(ds[..|ds| - 1]) + DigitValue(ds[|ds| - 1])
  }

  lemma {:induction false} ValueOfNatText(n: nat)
    ensures Value(NatText(n)) == n
    decreases n
  {
    if n >= 10 {
      var p := NatText(n / 10);
      ValueOfNatText(n / 10);
      assert NatText(n) == p + [DigitChar(n % 10)];
      assert (p + [DigitChar(n % 10)])[..|p|] == p;
    }
  }

  /** The length of the longest prefix of s whose characters all satisfy p. */
  function Span(s: string, p: char -> bool): (k: nat)
    ensures k <= |s|
    ensures forall i :: 0 <= i < k ==> p(s[i])
    ensures k == |s| || !p(s[k])
  {
    if s != [] && p(s[0]) then 1 + Span(s[1..], p) else 0
  }

  lemma {:induction false} SpanOfPrefix(a: string, b: string, p: char -> bool)
    requires forall i :: 0 <= i < |a| ==> p(a[i])
    requires b == [] || !p(b[0])
    ensures Span(a + b, p) == |a|
    decreases |a|
  {
    if a != [] {
      assert (a + b)[1..] == a[1..] + b;
      SpanOfPrefix(a[1..], b, p);
    } else {
      assert a + b == b;
    }
  }

  /** What the sentry of a formatted read does: drop leading white space. */
  function SkipSpace(s: string): (r: string)
    ensures |r| <= |s| && r == s[|s| - |r|..]
    ensures r == [] || !IsSpace(r[0])
    ensures forall i :: 0 <= i < |s| - |r| ==> IsSpace(s[i])
  {
    if s != [] && IsSpace(s[0]) then SkipSpace(s[1..]) else s
  }

  /** `is.ignore()`: drop one character, if there is one. */
  function Ignore(s: string): (r: string)
    ensures s != [] ==> r == s[1..]
    ensures s == [] ==> r == []
  {
    if s == [] then [] else s[1..]
  }

  /** `is >> buf` for a character buffer: skip white space, then extract the
      longest run of non-space characters. None when nothing is extracted
      (the stream fails). */
  function ReadToken(s: string): (r: Option<Parsed<string>>)
    ensures r.Some? ==> 0 < |r.value.value| && forall i :: 0 <= i < |r.value.value| ==> !IsSpace(r.value.value[i])
    ensures r.Some? ==> r.value.rest == [] || IsSpace(r.value.rest[0])
    ensures r.None? <==> SkipSpace(s) == []
  {
    var t := SkipSpace(s);
    var k := Span(t, IsNotSpace);
    if k == 0 then None else Some(Parsed(t[..k], t[k..]))
  }

  /** `is.getline(buf, size)`: the characters before the first '\n', which is
      extracted but not stored. The C++ stream checks, for each character, end
      of input first, then the delimiter, then whether size - 1 characters are
      already stored; it fails when size - 1 characters are stored before a
      delimiter, or when nothing at all was extracted. */
  function GetLine(s: string, size: nat): (r: Option<Parsed<string>>)
    requires 1 <= size
    ensures r.Some? ==> |r.value.value| < size && forall i :: 0 <= i < |r.value.value| ==> r.value.value[i] != '\n'
    ensures r.Some? ==> |r.value.rest| < |s|
  {
    var k := Span(s, IsNotNewline);
    if k > size - 1 then None
    else if k < |s| then Some(Parsed(s[..k], s[k + 1..]))
    else if k > 0 then Some(Parsed(s, []))
    else None
  }

  /** `is >> x` for a number: skip white space, then read a number where
      the sentry stopped. Range checks belong to the caller, which knows the
      target type. */
  function ReadInteger(s: string): (r: Option<Parsed<int>>)
    ensures r.Some? ==> |r.value.rest| < |s|
    ensures r.Some? ==> r.value.rest == [] || !IsAsciiDigit(r.value.rest[0])
  {
    NumberAt(SkipSpace(s))
  }

  /** An optional sign and the longest run of digits after it. None when no
      digit is found (the stream fails). */
  function NumberAt(t: string): (r: Option<Parsed<int>>)
    ensures r.Some? ==> |r.value.rest| < |t|
    ensures r.Some? ==> r.value.rest == [] || !IsAsciiDigit(r.value.rest[0])
  {
    var signed := t != [] && (t[0] == '-' || t[0] == '+');
    var u := if signed then t[1..] else t;
    var k := Span(u, IsAsciiDigit);
    if k == 0 then None
    else
      var magnitude: int := Value(u[..k]);
      Some(Parsed(if signed && t[0] == '-' then -magnitude else magnitude, u[k..]))
  }

  lemma SkipSpaceStopsAtNonSpace(s: string)
    requires s == [] || !IsSpace(s[0])
    ensures SkipSpace(s) == s
  {
  }

  lemma {:induction false} SkipSpaceOverSpace(c: char, s: string)
    requires IsSpace(c)
    ensures SkipSpace([c] + s) == SkipSpace(s)
  {
    assert ([c] + s)[1..] == s;
  }

  /** A number read skips white space in front of the number. */
  lemma ReadIntegerSkipsSpace(c: char, s: string)
    requires IsSpace(c)
    ensures ReadInteger([c] + s) == ReadInteger(s)
  {
    SkipSpaceOverSpace(c, s);
  }

  /** Reading back a numeral of digits stops exactly where it ends. */
  lemma {:induction false} NumberAtDigits(digits: string, rest: string)
    requires 0 < |digits| && AllDigits(digits)
    requires rest == [] || !IsAsciiDigit(rest[0])
    ensures NumberAt(digits + rest) == Some(Parsed(Value(digits) as int, rest))
  {
    var u := digits + rest;
    SpanOfPrefix(digits, rest, IsAsciiDigit);
    assert u[..|digits|] == digits;
    assert u[|digits|..] == rest;
  }

  lemma {:induction false} NumberAtNegative(digits: string, rest: string)
    requires 0 < |digits| && AllDigits(digits)
    requires rest == [] || !IsAsciiDigit(rest[0])
    ensures NumberAt("-" + digits + rest) == Some(Parsed(-(Value(digits) as int), rest))
  {
    var t := "-" + digits + rest;
    var u := digits + rest;
    assert t[1..] == u;
    SpanOfPrefix(digits, rest, IsAsciiDigit);
    assert u[..|digits|] == digits;
    assert u[|digits|..] == rest;
  }

  /** Reading back the numeral of a natural number stops exactly where the
      numeral ends. */
  lemma {:induction false} ReadNatText(n: nat, rest: string)
    requires rest == [] || !IsAsciiDigit(rest[0])
    ensures ReadInteger(NatText(n) + rest) == Some(Parsed(n, rest))
  {
    SkipSpaceStopsAtNonSpace(NatText(n) + rest);
    ValueOfNatText(n);
    NumberAtDigits(NatText(n), rest);
  }

  lemma NegativeText(x: int)
    requires x < 0
    ensures IntText(x) == "-" + NatText(-x)
  {
  }

  lemma {:induction false} ReadIntTextNegative(x: int, rest: string)
    requires x < 0
    requires rest == [] || !IsAsciiDigit(rest[0])
    ensures ReadInteger(IntText(x) + rest) == Some(Parsed(x, rest))
  {
    NegativeText(x);
    SkipSpaceStopsAtNonSpace(IntText(x) + rest);
    ValueOfNatText(-x);
    NumberAtNegative(NatText(-x), rest);
  }

  lemma {:induction false} ReadIntTextNatural(x: int, rest: string)
    requires 0 <= x
    requires rest == [] || !IsAsciiDigit(rest[0])
    ensures ReadInteger(IntText(x) + rest) == Some(Parsed(x, rest))
  {
    assert IntText(x) == NatText(x);
    ReadNatText(x, rest);
  }

  /** Reading back the numeral of x stops exactly where the numeral ends. */
  lemma {:induction false} ReadIntText(x: int, rest: string)
    requires rest == [] || !IsAsciiDigit(rest[0])
    ensures ReadInteger(IntText(x) + rest) == Some(Parsed(x, rest))
  {
    if x < 0 {
      ReadIntTextNegative(x, rest);
    } else {
      ReadIntTextNatural(x, rest);
    }
  }

  lemma {:induction false} ReadTokenBack(tok: string, rest: string)
    requires 0 < |tok| && forall i :: 0 <= i < |tok| ==> !IsSpace(tok[i])
    requires rest == [] || IsSpace(rest[0])
    ensures ReadToken(tok + rest) == Some(Parsed(tok, rest))
  {
    var s := tok + rest;
    SkipSpaceStopsAtNonSpace(s);
    SpanOfPrefix(tok, rest, IsNotSpace);
    assert s[..|tok|] == tok;
    assert s[|tok|..] == rest;
  }

  lemma {:induction false} GetLineBack(line: string, size: nat, rest: string)
    requires |line| < size
    requires forall i :: 0 <= i < |line| ==> line[i] != '\n'
    ensures GetLine(line + "\n" + rest, size) == Some(Parsed(line, rest))
  {
    var s := line + "\n" + rest;
    assert s == line + ("\n" + rest);
    SpanOfPrefix(line, "\n" + rest, IsNotNewline);
    assert s[..|line|] == line;
    assert s[|line| + 1..] == rest;
  }
}
